=== FILE: README.md ===
# Lattice pricers of qfrm: Bermudan, Shout and Chooser

A Dafny model of the binomial-lattice core of the qfrm option-pricing library.
Three pricers, all built around one lattice:

- **Bermudan pricer.**
  - `calc_px` settles the exercise schedule `tex` and the step count.
  - `_calc_LT` rolls the binomial tree back from the terminal payouts. It takes the larger of holding and exercising, but only at scheduled dates.
  - `_calc_MC` runs a backward pass over simulated paths. At each exercise date from the second to the second-to-last (as written), a path exercises when its payout beats a regression estimate of continuing; the last date keeps its payout.
- **Shout pricer.** `_calc_LT` rolls the same tree back. At every layer before maturity it floors the value at the non-negative part of the "shout" locked value.
- **Chooser pricer.**
  - `_calc_LT` prices the plain European contract on the lattice. With history kept, it rolls the tree back and reports the root. Without history, it evaluates df_T times a binomially weighted sum of the terminal payouts, with the weights computed from log-factorials.
  - The `chooser()` helper validates its inputs before pricing.

The modules follow that structure:

| module | file | contents |
|---|---|---|
| `Arith` | arith.dfy | powers, factorials, binomial coefficients, Python's `int()` on floats, sums and means |
| `Lattice` | lattice.dfy | the shared engine: terminal layer, one-step discounted continuation, per-node rules (`Hold`, `Exercise`, `ShoutFloor`), backward rollback keeping every layer root first |
| `Binomial` | binomial.dfy | the European rollback in closed form: every node is df_dt^k times a binomially weighted sum |
| `Bermudan` | bermudan.dfy | schedule normalisation, step count, the lattice pricer as written and corrected |
| `BermudanMC` | bermudan_mc.dfy | the Monte Carlo backward pass, with the regression estimates as inputs |
| `Shout` | shout.dfy | the shout lattice, with the locked-value formula as a parameter |
| `Chooser` | chooser.dfy | both branches of the chooser lattice pricer, and the input checks |
| `Wrappers` | wrappers.dfy | `Option` and `Result` |

Modelling conventions:

- Prices are exact reals. Python floats and numpy arrays become `real` and `seq<real>`.
- The lattice parameters of `LT_specs(n)` (n, u, d, p, df_dt, df_T, dt) are an input record `LatticeSpec`.
- The exercise test `i*dt in tex` compares exact reals.
- `exp` and `log` in the chooser's closed form are evaluated exactly. numpy produces NaN exactly when p ∉ (0, 1): log of a negative number is NaN, and at p = 0 or p = 1 the −inf from the logarithm is multiplied by a zero count at chooser.py:187. In those cases the result is `None`.

## Model

| member | source | states |
|---|---|---|
| Lattice.Payout | qfrm/options/Bermudan.py:230 | the intrinsic value is non-negative, positive exactly when the option is in the money, and then equals sign·(S − K) |
| Lattice.NodeValue | qfrm/options/Bermudan.py:240-242 | a node never falls below its continuation value; Hold keeps it; a scheduled exercise gives at least the payout and is one of the two; the shout floor gives at least the locked value and zero and is one of the three |
| Lattice.RollBack | qfrm/options/Bermudan.py:236-245 | the backward loop from layer i yields i+1 layers of sizes 1..i+1 and keeps layer i as given |
| Lattice.Valuation | qfrm/options/Bermudan.py:227-245 | the whole lattice: n+1 layers, the last holding the terminal prices and their non-negative payouts, rolled back to the root |
| Lattice.LayerStep | qfrm/options/Bermudan.py:237-239 | each earlier layer holds the later layer's prices shifted down by d and the adjusted discounted continuation of its values |
| Lattice.ContinuationBounds | qfrm/options/Bermudan.py:237 | with 0 ≤ p ≤ 1 and df_dt ≥ 0, each continuation value lies between df_dt times the smaller and df_dt times the larger successor |
| Lattice.RollBackNonneg | qfrm/options/Bermudan.py:236-245 | with 0 ≤ p ≤ 1 and df_dt ≥ 0, non-negative terminal payouts stay non-negative in every layer, under any rule |
| Lattice.RollBackDominates | qfrm/options/Bermudan.py:236-245 | a dominating rule rolled back from larger terminal values gives a larger tree, node by node |
| Lattice.AdjustedAtLeastEuropean | qfrm/options/Bermudan.py:241-242 | any early-decision rule gives a tree at least the European tree, node by node, with the same asset prices |
| Lattice.NeverExercisableIsHold | qfrm/options/Bermudan.py:241-242 | an exercise rule that allows no layer before maturity produces the European tree |
| Lattice.SameExerciseLayers | qfrm/options/Bermudan.py:241-242 | two exercise schedules that allow the same layers before maturity give the same tree |
| Lattice.GridAscending | qfrm/options/Bermudan.py:229 | with S0 ≥ 0 and 0 < d ≤ u the terminal prices S0·d^(n−j)·u^j ascend in j |
| Lattice.ShiftDownGrid | qfrm/options/Bermudan.py:239 | with u·d = 1, d·S[1..] of one grid layer is the grid layer one step earlier |
| Lattice.ValuationAssetTree | qfrm/options/Bermudan.py:229-239 | with u·d = 1, layer k of the asset tree is S0·d^(k−j)·u^j |
| Lattice.GridRecombines | chooser.py:78-82 | with u·d = 1, the node two layers later with one more up-move has the same price |
| Lattice.TimeLeft | Shout.py:149-150 | the time left at a layer before maturity is at least dt and at most n·dt, and positive when dt is |
| Binomial.WeightIsBinomialPmf | chooser.py:186-187 | the weight the rollback accumulates on terminal node i after k steps is C(k,i)·p^i·(1−p)^(k−i) |
| Binomial.HoldRollBackIsExpect | chooser.py:177-179 | every node of the unadjusted rollback is the one-step recurrence applied k times to the terminal values |
| Binomial.BinomialPascal | chooser.py:177-178 | the binomial sum over k+1 steps is the probability-weighted average of the two k-step sums one node apart |
| Binomial.ExpectIsBinomialSum | chooser.py:177-188 | the k-step recurrence equals df_dt^k times the binomially weighted sum of the values it reaches |
| Binomial.EuropeanIsBinomialSum | chooser.py:177-188 | node (k, j) of the European tree is df_dt^(n−k) times the binomial sum of the terminal payouts j..j+n−k |
| Binomial.EuropeanRoot | chooser.py:177-188 | the European root is df_dt^n times the binomially weighted sum of all terminal payouts |
| Binomial.WeightsSumToOne | chooser.py:186-188 | the binomial weights of one layer sum to one |
| Binomial.WeightNonneg | chooser.py:187-188 | with 0 ≤ p ≤ 1 every weight is non-negative |
| Binomial.ExpectConstant | chooser.py:178 | without discounting, the recurrence maps a constant layer to the same constant |
| Arith.Trunc | qfrm/options/Bermudan.py:203 | int() truncates toward zero: the result is the integer next to x on the side of zero, within one |
| Arith.ChooseIsFactorialRatio | chooser.py:186-187 | the Pascal coefficient C(k,i) equals k!/(i!(k−i)!), the ratio the log-factorial differences exponentiate to |
| Bermudan.LastDate | qfrm/options/Bermudan.py:193 | max(tex) is a date of tex and no date exceeds it |
| Bermudan.BeforeConcat | qfrm/options/Bermudan.py:198 | keeping the dates before T preserves their order |
| Bermudan.NormalizeSchedule | qfrm/options/Bermudan.py:193-200 | when T − max(tex) < ε the schedule becomes exactly the dates before T, in their order and with their repeats, followed by T; when T − max(tex) > ε its last date is replaced by T; when the gap is exactly ε it is unchanged |
| Bermudan.Before | qfrm/options/Bermudan.py:198 | the dates strictly before T: the same members, each as often as in tex |
| Bermudan.NormalizeKeepsOrder | qfrm/options/Bermudan.py:197-198 | (0.3, 0.2, 0.5) with T = 0.4 normalises to (0.3, 0.2, 0.4): the kept dates are not reordered |
| Bermudan.NormalizeKeepsRepeats | qfrm/options/Bermudan.py:197-198 | (0.5, 0.5, 1) with T = 0.9 normalises to (0.5, 0.5, 0.9): a repeated date stays repeated |
| Bermudan.NormalizeIncreasing | qfrm/options/Bermudan.py:196-200 | an increasing schedule stays increasing after normalisation and ends at T |
| Bermudan.MaxGapSteps | qfrm/options/Bermudan.py:203 | the result is the largest int(T / gap) over the given gaps, and one gap attains it |
| Bermudan.StepCount | qfrm/options/Bermudan.py:203-206 | fails exactly when there is no gap or a zero gap; otherwise the largest int(T / gap), multiplied by nsteps when given |
| Bermudan.PlanSchedule | qfrm/options/Bermudan.py:193-206 | an empty schedule fails; otherwise the normalised schedule, and the step count from the pre-normalisation max(tex) |
| Bermudan.BermudanLT | qfrm/options/Bermudan.py:229-245 | the valuation has n+1 layers, its terminal layer holds the terminal prices and their payouts |
| Bermudan.BermudanLayer | qfrm/options/Bermudan.py:237-242 | every earlier node is the discounted continuation, raised to the payout exactly when the layer's time is an exercise date |
| Bermudan.AllStepsIsAmerican | qfrm/options/Bermudan.py:241-242 | a schedule holding the time of every layer before maturity, including time 0, prices exactly like the American lattice |
| Bermudan.AsWrittenAllDatesIsAmerican | qfrm/options/Bermudan.py:241-242 | with the gate as written, a schedule holding every step time dt, 2·dt, …, n·dt (no time 0) prices exactly like the American lattice, root included |
| Bermudan.BermudanBetween | qfrm/options/Bermudan.py:16-18 | every Bermudan node is non-negative, at least the European value and at most the American value, so the price lies between the two |
| Bermudan.ScheduleMonotone | qfrm/options/Bermudan.py:241-242 | adding exercise dates never lowers any node or the price |
| Bermudan.MaturityOnlyIsEuropean | qfrm/options/Bermudan.py:241-242 | with no exercise date before maturity, the Bermudan tree is the European tree |
| Bermudan.BermudanLTAsWritten | qfrm/options/Bermudan.py:236-245 | the loop as written has n+1 layers and its terminal values are the payouts |
| Bermudan.AsWrittenIsShiftedSchedule | qfrm/options/Bermudan.py:236-242 | the loop as written gives exactly the tree the corrected gate gives for every date moved dt earlier |
| Bermudan.ExamplePlan | qfrm/options/Bermudan.py:193-206 | calc_px keeps the schedule (0.4, 1) for maturity 1 and prices it on a one-step lattice |
| Bermudan.AsWrittenExercisesEarly | qfrm/options/Bermudan.py:241-242 | on that one-step put (S0 = 1, u = 2, d = 1/2, p = 1/2, df_dt = 4/5, K = 4), the gate as written exercises at time 0 and prices 3, while the corrected gate holds and prices the European 11/5 |
| BermudanMC.Decide | qfrm/options/Bermudan.py:387-390 | a path takes its payout where the payout beats the estimate, and otherwise the later realised value |
| BermudanMC.BackwardPass | qfrm/options/Bermudan.py:376-393 | the loop leaves every date from 1 on holding its realised value, and column 0 a copy of column 1 |
| BermudanMC.MCPrice | qfrm/options/Bermudan.py:393-396 | the mean of the realised values at the first date is non-negative when the payouts are |
| Arith.MeanMono | qfrm/options/Bermudan.py:396 | pointwise smaller columns have a smaller mean |
| BermudanMC.PayoutColumns | qfrm/options/Bermudan.py:370 | one payout column per date, as long as that date's prices, never negative, and positive exactly where the price is in the money |
| BermudanMC.MCPriceOfPathsNonneg | qfrm/options/Bermudan.py:370-396 | the Monte Carlo price of payouts taken from simulated prices is non-negative, whatever the regression estimates and the loop bound |
| BermudanMC.Realized | qfrm/options/Bermudan.py:376-393 | one realised value per path, and whatever the estimates it is the path's own payout at that date or a later one |
| BermudanMC.AsWrittenIgnoresLaterDates | qfrm/options/Bermudan.py:376-396 | with the loop bound as written, the price is the mean of the raw payouts at the first exercise date, whatever the estimates and the later payouts |
| BermudanMC.CorrectedDecidesAtFirstDate | qfrm/options/Bermudan.py:376-393 | with the corrected bound, the first exercise date chooses between its payout and the later realised value by its estimate, like every other date |
| BermudanMC.RealizedNonneg | qfrm/options/Bermudan.py:370-396 | non-negative payouts give non-negative realised values |
| BermudanMC.NeverExercised | qfrm/options/Bermudan.py:387-390 | a path whose payout never beats its estimate from date t on realises its last payout |
| BermudanMC.AsWrittenNoHigher | qfrm/options/Bermudan.py:376-396 | when no estimate at the first exercise date exceeds what holding realises, the loop as written prices no higher than the corrected loop |
| BermudanMC.AsWrittenExercisesWorthless | qfrm/options/Bermudan.py:376-396 | one path with payouts (0, 0, 5) and estimate 2 at the first date: the loop as written prices 0, the corrected loop 5 |
| Shout.ShoutLT | Shout.py:142-164 | the shout valuation has n+1 layers, its terminal layer holds the terminal prices and their payouts |
| Shout.ShoutPrice | Shout.py:168 | the shout price is non-negative and at least the European price |
| Shout.StepTimeLeft | Shout.py:149-150 | step i of the loop uses (n−i+1)·dt, the time left at layer i−1, between dt and n·dt |
| Shout.ShoutLayer | Shout.py:154-161 | every earlier node is max(continuation, max(locked value at its price and time left, 0)) |
| Shout.ShoutAtLeastEuropean | Shout.py:128-131 | every shout node is non-negative and at least the European node, on the same asset tree |
| Shout.ShoutMonotoneInLock | Shout.py:156-161 | a larger locked value never lowers any node or the price |
| Shout.NonPositiveLockIsEuropean | Shout.py:160-161 | a lock that is never positive leaves the European tree |
| Shout.ShoutAssetTree | Shout.py:142-155 | with u·d = 1 the asset tree recombines and the root and the middle of layer 2 are S0 |
| Chooser.LogFactorialWeightIsPmf | chooser.py:186-187 | exp of the log-factorial expression is the binomial probability C(n,j)·p^j·(1−p)^(n−j) |
| Chooser.LogFactorialWeightIsPascal | chooser.py:186-187 | each log-factorial weight equals the weight the rollback accumulates on that terminal node |
| Chooser.LogFactorialSumIsBinomialSum | chooser.py:186-188 | sum(exp(tmp)·O) is the binomial sum of the terminal payouts |
| Chooser.ChooserLT | chooser.py:166-191 | history is returned exactly when kept; then the price is the root of the tree; without it a price exists exactly when 0 < p < 1 |
| Chooser.ClosedForm | chooser.py:186-188 | the closed form is defined exactly when 0 < p < 1 |
| Chooser.LogFactorialPrice | chooser.py:186-188 | df_T·sum(exp(tmp)·O) is df_T times the binomial expectation of the terminal payouts |
| Chooser.ClosedFormBranch | chooser.py:185-188 | without history and with 0 < p < 1 the reported price is the log-factorial price of the terminal payouts |
| Chooser.HistoryIsPureRollBack | chooser.py:169-184 | the history tree starts from the terminal prices and payouts and every earlier node is one unadjusted discounted step back |
| Chooser.BranchesAgree | chooser.py:166-191 | with 0 < p < 1 and df_T = df_dt^n, both branches give the same price |
| Chooser.EuropeanRootIsClosedForm | chooser.py:177-188 | the European rollback root equals df_T times the log-factorial sum when df_T = df_dt^n |
| Chooser.ChooserPriceNonneg | chooser.py:170-188 | with 0 ≤ p ≤ 1 and non-negative discount factors, any price either branch returns is non-negative |
| Chooser.LogFactorialWeightsSumToOne | chooser.py:186-188 | the log-factorial weights of one lattice sum to one |
| Chooser.ReferenceTreeRecombines | chooser.py:78-82 | with u·d = 1 the history's asset layers are the recombining grid, and a node two layers later with one more up-move repeats its price |
| Chooser.Lower | chooser.py:268 | lower-casing keeps the length and maps each character on its own |
| Chooser.LowerIdempotent | chooser.py:268 | lower-casing twice is lower-casing once |
| Chooser.ValidateChooser | chooser.py:267-287 | succeeds exactly when the lower-cased right is "call" or "put" and vol, K, T > 0 and S, rfr, q ≥ 0; otherwise it reports the first failing assertion, in source order |
| Chooser.ValidateIgnoresCase | chooser.py:268-281 | the checks give the same answer for a right and its lower-cased form |

## Left out

- Random paths and the polynomial regression of `_calc_MC` (`np.random`, `np.polyfit`, `np.polyval`) are left out. The continuation estimates are an input, one per path and date.
- `LT_specs` is not part of this model. Its output is the input record `LatticeSpec`.
- The Black-Scholes expression of the shout lock (`d1`, `d2`, `norm.cdf`, `exp`) is not modelled. It is the parameter `lock(S, tleft)`.
- `PriceSpec`, `Util.demote`, the history tuples of floats, plotting and the `getattr` dispatch on the method name are bookkeeping and are left out.
- The `_calc_BS`, `_calc_MC` and `_calc_FD` stubs of the Shout class (Shout.py:176-221) and the `_calc_MC` and `_calc_FD` stubs of the Chooser class (chooser.py:195-221) return without pricing; they are outside the lattice core.
- The `_calc_BS` (Bermudan.py:256-269) and `_calc_FD` (Bermudan.py:405-419) stubs of the Bermudan class return without pricing; they are outside the lattice core.
- The `_calc_BS` method of the Chooser class (chooser.py:124-149) is a Black-Scholes closed form, outside the lattice core.
- The Black-Scholes price at the end of `chooser()` is left out; only its input checks are modelled.
- Floating-point rounding is left out. The test `i*dt in tex` compares exact reals, so a date that float products miss by one ulp is still found.
- `exp` and `log` are evaluated exactly. The closed form's NaN, which arises exactly when p ∉ (0, 1), is `None`.
- The `float()` conversions in `chooser()`, and the `return False` they lead to on failure, are not modelled: the inputs are already reals.
- `chooser()`'s `tau` is not validated, as in the source.
- Chooser.Lower: lower-cases ASCII letters only; Python's `str.lower` also maps other Unicode letters.
- BermudanMC.MCPrice: states non-negativity only. The price is the undiscounted mean of the realised values, as in the source.
- BermudanMC.MCPrice: requires npaths > 0. With no paths the source takes `np.mean` of an empty column (NaN) or fails inside `np.polyfit`; that case is not modelled.
- Bermudan.NormalizeSchedule: models a schedule given as a tuple only. For a list, `tex[:-1] + (self.T,)` at Bermudan.py:200 raises TypeError; for a numpy array it broadcasts, adding T to each of the first |tex|−1 dates. Neither behaviour is modelled.
- The assertion messages of `chooser()` are not modelled. Each is an `InputError` value. One message says "Vol must be >=0" while the check demands vol > 0; the model follows the check.

## Findings

| source | as written | input that shows it | evidently intended | confidence | as-written member | corrected member |
|---|---|---|---|---|---|---|
| qfrm/options/Bermudan.py:241-242 | the step that produces layer i−1 (time (i−1)·dt) tests whether i·dt is an exercise date, so every layer is gated by the date one step later | calc_px with maturity 1 and tex = (0.4, 1) gives one step of dt = 1; with S0 = 1, u = 2, d = 1/2, p = 1/2, df_dt = 4/5 (volatility ln 2, rate ln 1.25, no yield) and a put struck at 4, the root exercises at time 0, which is no exercise date, and the price is 3 instead of 11/5 | layer i−1 exercisable exactly when (i−1)·dt is an exercise date | not executed | Bermudan.AsWrittenExercisesEarly | Bermudan.BermudanLayer |
| qfrm/options/Bermudan.py:376-393 | `range(len(tex) - 1, 1, -1)` stops at date 2, so date 1 is never rewritten and column 0 copies its bare payouts | one path, payouts (0, 0, 5) at dates 0..2, continuation estimate 2 at date 1: the price is 0, although holding realises 5 | step back through date 1 as well (loop bound 0), so the first exercise date also decides against its estimate | not executed | BermudanMC.AsWrittenExercisesWorthless | BermudanMC.NeverExercised |

The rest of the model uses the corrected forms. `Bermudan.BermudanLT` gates layer k on k·dt. The correction trades one property for another. As written, a schedule holding every step time dt, …, T prices as the American lattice (`Bermudan.AsWrittenAllDatesIsAmerican`), while a schedule with no step time before maturity still exercises one step early, so it need not price as the European lattice (`Bermudan.AsWrittenExercisesEarly`: 3 against 11/5). Corrected, maturity only prices as European (`Bermudan.MaturityOnlyIsEuropean`), and the American price needs time 0 in the schedule (`Bermudan.AllStepsIsAmerican`). `BermudanMC.MCPrice` takes the lowest rewritten date as a parameter: `LowestAsWritten` = 2 and `LowestCorrected` = 1. Beyond the example of the second row, `BermudanMC.AsWrittenIgnoresLaterDates` proves for every input that the loop as written prices the mean of the raw payouts at the first exercise date. `BermudanMC.CorrectedDecidesAtFirstDate` proves that the corrected bound makes that date decide against its estimate.

=== FILE: arith.dfy ===
/** Exact arithmetic used by the pricing lattices: powers, factorials, binomial
    coefficients, Python's truncating int(), and sums over sequences of reals. */
module Arith {

  function Max(a: real, b: real): (m: real)
    ensures m >= a && m >= b
    ensures m == a || m == b
  {
    if a >= b then a else b
  }

  function Min(a: real, b: real): (m: real)
    ensures m <= a && m <= b
    ensures m == a || m == b
  {
    if a <= b then a else b
  }

  function Pow(x: real, k: nat): real
  {
    if k == 0 then 1.0 else x * Pow(x, k - 1)
  }

  /** One more factor: x^(k+1) = x·x^k. */
  lemma {:induction false} PowStep(x: real, k: nat)
    ensures Pow(x, k + 1) == x * Pow(x, k)
  {
  }

  /** x^m = x·x^n when m = n + 1. */
  lemma {:induction false} PowSucc(x: real, n: nat, m: nat)
    requires m == n + 1
    ensures Pow(x, m) == x * Pow(x, n)
  {
  }

  lemma {:induction false} PowNonneg(x: real, k: nat)
    requires x >= 0.0
    ensures Pow(x, k) >= 0.0
  {
    if k > 0 {
      PowNonneg(x, k - 1);
      assert x * Pow(x, k - 1) >= 0.0;
    }
  }

  lemma {:induction false} PowOne(k: nat)
    ensures Pow(1.0, k) == 1.0
  {
    if k > 0 {
      PowOne(k - 1);
    }
  }

  /** Python's int() on a float: truncation toward zero. */
  function Trunc(x: real): (r: int)
    ensures x >= 0.0 ==> 0 <= r && r as real <= x < r as real + 1.0
    ensures x < 0.0 ==> r <= 0 && r as real - 1.0 < x <= r as real
  {
    if x >= 0.0 then x.Floor else -((-x).Floor)
  }

  function Sum(s: seq<real>): real
  {
    if |s| == 0 then 0.0 else Sum(s[..|s| - 1]) + s[|s| - 1]
  }

  lemma {:induction false} SumNonneg(s: seq<real>)
    requires forall j :: 0 <= j < |s| ==> s[j] >= 0.0
    ensures Sum(s) >= 0.0
  {
    if |s| > 0 {
      SumNonneg(s[..|s| - 1]);
    }
  }

  /** Pointwise smaller entries have a smaller sum. */
  lemma {:induction false} SumMono(a: seq<real>, b: seq<real>)
    requires |a| == |b| && forall j :: 0 <= j < |a| ==> a[j] <= b[j]
    ensures Sum(a) <= Sum(b)
  {
    if |a| > 0 {
      SumMono(a[..|a| - 1], b[..|b| - 1]);
    }
  }

  /** numpy's mean over a non-empty column. */
  function Mean(s: seq<real>): real
    requires |s| > 0
  {
    Sum(s) / (|s| as real)
  }

  /** Pointwise smaller entries have a smaller mean. */
  lemma {:induction false} MeanMono(a: seq<real>, b: seq<real>)
    requires |a| == |b| > 0 && forall j :: 0 <= j < |a| ==> a[j] <= b[j]
    ensures Mean(a) <= Mean(b)
  {
    SumMono(a, b);
    var n := |a| as real;
    assert Mean(b) - Mean(a) == (Sum(b) - Sum(a)) / n;
  }

  function Fact(k: nat): nat
  {
    if k == 0 then 1 else k * Fact(k - 1)
  }

  lemma {:induction false} FactPositive(k: nat)
    ensures Fact(k) > 0
  {
    if k > 0 {
      FactPositive(k - 1);
    }
  }

  /** The binomial coefficient C(k, i) by Pascal's rule. */
  function Choose(k: nat, i: nat): nat
  {
    if i == 0 then 1
    else if k == 0 then 0
    else Choose(k - 1, i - 1) + Choose(k - 1, i)
  }

  lemma {:induction false} ChooseAbove(k: nat, i: nat)
    requires i > k
    ensures Choose(k, i) == 0
  {
    if k > 0 {
      ChooseAbove(k - 1, i - 1);
      ChooseAbove(k - 1, i);
    }
  }

  lemma {:induction false} ChooseDiagonal(k: nat)
    ensures Choose(k, k) == 1
  {
    if k > 0 {
      ChooseDiagonal(k - 1);
      ChooseAbove(k - 1, k);
    }
  }

  /** C(i+j, i)·i!·j! = (i+j)!. */
  lemma {:induction false} ChooseFactorial(k: nat, i: nat, j: nat)
    requires i + j == k
    ensures Choose(k, i) * Fact(i) * Fact(j) == Fact(k)
    decreases k
  {
    if i == 0 {
    } else if j == 0 {
      ChooseDiagonal(k);
    } else {
      ChooseFactorial(k - 1, i - 1, j);
      ChooseFactorial(k - 1, i, j - 1);
      PascalFactorial(Choose(k - 1, i - 1), Choose(k - 1, i), Fact(i - 1), Fact(j - 1), Fact(k - 1), i, j);
    }
  }

  /** The algebra of one Pascal step of ChooseFactorial, over e1 = C(k−1,i−1),
      e2 = C(k−1,i), fi1 = (i−1)!, fj1 = (j−1)!, f = (k−1)!. */
  lemma {:induction false} PascalFactorial(e1: int, e2: int, fi1: int, fj1: int, f: int, i: int, j: int)
    requires e1 * fi1 * (j * fj1) == f && e2 * (i * fi1) * fj1 == f
    ensures (e1 + e2) * (i * fi1) * (j * fj1) == (i + j) * f
  {
    calc {
      (e1 + e2) * (i * fi1) * (j * fj1);
      e1 * (i * fi1) * (j * fj1) + e2 * (i * fi1) * (j * fj1);
      { assert e1 * (i * fi1) * (j * fj1) == i * (e1 * fi1 * (j * fj1));
        assert e2 * (i * fi1) * (j * fj1) == j * (e2 * (i * fi1) * fj1); }
      i * f + j * f;
    }
  }

  /** k!/(i!·(k−i)!) as a real: the coefficient the log-factorial formula
      log k! − log i! − log (k−i)! exponentiates to. */
  function FactorialRatio(k: nat, i: nat): real
    requires i <= k
  {
    FactPositive(i);
    FactPositive(k - i);
    (Fact(k) as real) / ((Fact(i) * Fact(k - i)) as real)
  }

  /** The Pascal-rule coefficient is k!/(i!·(k−i)!). */
  lemma {:induction false} ChooseIsFactorialRatio(k: nat, i: nat)
    requires i <= k
    ensures Choose(k, i) as real == FactorialRatio(k, i)
  {
    var c, a, b, f := Choose(k, i), Fact(i), Fact(k - i), Fact(k);
    ChooseFactorial(k, i, k - i);
    FactPositive(i);
    FactPositive(k - i);
    var y := a * b;
    Regroup(c, a, b, y, f);
    DivideOut(c, y, f);
    assert FactorialRatio(k, i) == (f as real) / (y as real);
  }

  /** c·a·b = f regrouped as c·(a·b) = f. */
  lemma {:induction false} Regroup(c: int, a: int, b: int, y: int, f: int)
    requires c * a * b == f && y == a * b
    ensures c * y == f
  {
  }

  lemma {:induction false} DivideOut(x: int, y: int, z: int)
    requires y > 0 && x * y == z
    ensures x as real == (z as real) / (y as real)
  {
    assert (x as real) * (y as real) == z as real;
  }
}

=== FILE: bermudan.dfy ===
/** The Bermudan pricer: the exercise schedule calc_px normalises and the step
    count it derives from it, and the lattice valuation of _calc_LT, which takes
    the larger of holding and exercising only at scheduled dates. */
module Bermudan {
  import opened Arith
  import opened Wrappers
  import opened Lattice

  // ---------------------------------------------------------------------------
  // Exercise schedule

  /** Tolerance for "the last exercise date is the maturity". */
  const Epsilon: real := 0.00000000001

  /** The latest date of a non-empty schedule (Python's max). */
  function LastDate(tex: seq<real>): (m: real)
    requires |tex| > 0
    ensures m in tex
    ensures forall i :: 0 <= i < |tex| ==> tex[i] <= m
    decreases |tex|
  {
    if |tex| == 1 then tex[0]
    else
      var m := LastDate(tex[..|tex| - 1]);
      assert m in tex by {
        var i :| 0 <= i < |tex| - 1 && tex[..|tex| - 1][i] == m;
        assert tex[i] == m;
      }
      Max(m, tex[|tex| - 1])
  }

  /** The dates of tex strictly before T, in their original order. */
  function Before(tex: seq<real>, T: real): (r: seq<real>)
    ensures |r| <= |tex|
    ensures forall x :: x in r <==> x in tex && x < T
    ensures forall x :: multiset(r)[x] == if x < T then multiset(tex)[x] else 0
    decreases |tex|
  {
    if |tex| == 0 then []
    else
      var last := tex[|tex| - 1];
      var r := Before(tex[..|tex| - 1], T) + (if last < T then [last] else []);
      assert tex == tex[..|tex| - 1] + [last];
      assert multiset(tex) == multiset(tex[..|tex| - 1]) + multiset{last};
      r
  }

  /** Filtering distributes over concatenation, so Before keeps the original order. */
  lemma {:induction false} BeforeConcat(a: seq<real>, b: seq<real>, T: real)
    ensures Before(a + b, T) == Before(a, T) + Before(b, T)
    decreases |b|
  {
    if |b| == 0 {
      assert a + b == a;
    } else {
      var b' := b[..|b| - 1];
      BeforeConcat(a, b', T);
      assert (a + b)[..|a + b| - 1] == a + b';
      assert (a + b)[|a + b| - 1] == b[|b| - 1];
    }
  }

  /** Strictly increasing dates. */
  predicate Increasing(s: seq<real>)
  {
    forall i, j :: 0 <= i < j < |s| ==> s[i] < s[j]
  }

  /** Filtering an increasing schedule leaves it increasing. */
  lemma {:induction false} BeforeIncreasing(tex: seq<real>, T: real)
    requires Increasing(tex)
    ensures Increasing(Before(tex, T))
    decreases |tex|
  {
    if |tex| > 0 {
      var init, last := tex[..|tex| - 1], tex[|tex| - 1];
      BeforeIncreasing(init, T);
      var r := Before(init, T);
      if last < T {
        forall i, j | 0 <= i < j < |r + [last]| ensures (r + [last])[i] < (r + [last])[j] {
          if j == |r| {
            assert r[i] in init;
          }
        }
      }
    }
  }

  /** The schedule calc_px prices with, given maturity T. When the last date
      falls short of T by more than the tolerance, it is replaced by T; when it
      reaches T (or passes it), the dates before T are kept and T is appended;
      exactly at the tolerance the schedule is left alone. */
  function NormalizeSchedule(tex: seq<real>, T: real): (r: seq<real>)
    requires |tex| > 0
    ensures |r| > 0
    ensures T - LastDate(tex) != Epsilon ==> r[|r| - 1] == T
    ensures T - LastDate(tex) < Epsilon ==>
      && |r| <= |tex| + 1
      && r[..|r| - 1] == Before(tex, T)
      && forall x :: x in r[..|r| - 1] <==> x in tex && x < T
    ensures T - LastDate(tex) > Epsilon ==>
      && |r| == |tex|
      && forall i :: 0 <= i < |tex| - 1 ==> r[i] == tex[i]
    ensures T - LastDate(tex) == Epsilon ==> r == tex
  {
    var deltaT := T - LastDate(tex);
    if deltaT < Epsilon then
      var r := Before(tex, T) + [T];
      assert r[..|r| - 1] == Before(tex, T);
      r
    else if deltaT > Epsilon then tex[..|tex| - 1] + [T]
    else tex
  }

  /** When maturity comes before the last date, the kept dates keep their order:
      (0.3, 0.2, 0.5) with T = 0.4 becomes (0.3, 0.2, 0.4). */
  lemma {:induction false} NormalizeKeepsOrder()
    ensures NormalizeSchedule([0.3, 0.2, 0.5], 0.4) == [0.3, 0.2, 0.4]
  {
    var tex := [0.3, 0.2, 0.5];
    assert tex[..2] == [0.3, 0.2] && tex[..2][..1] == [0.3] && tex[..2][..1][..0] == [];
    assert LastDate(tex[..2][..1]) == 0.3;
    assert LastDate(tex[..2]) == 0.3;
    assert LastDate(tex) == 0.5;
    assert Before(tex[..2][..1], 0.4) == [0.3];
    assert Before(tex[..2], 0.4) == [0.3, 0.2];
    assert Before(tex, 0.4) == [0.3, 0.2];
  }

  /** ... and their repeats: (0.5, 0.5, 1) with T = 0.9 becomes (0.5, 0.5, 0.9). */
  lemma {:induction false} NormalizeKeepsRepeats()
    ensures NormalizeSchedule([0.5, 0.5, 1.0], 0.9) == [0.5, 0.5, 0.9]
  {
    var tex := [0.5, 0.5, 1.0];
    assert tex[..2] == [0.5, 0.5] && tex[..2][..1] == [0.5] && tex[..2][..1][..0] == [];
    assert LastDate(tex[..2][..1]) == 0.5;
    assert LastDate(tex[..2]) == 0.5;
    assert LastDate(tex) == 1.0;
    assert Before(tex[..2][..1], 0.9) == [0.5];
    assert Before(tex[..2], 0.9) == [0.5, 0.5];
    assert Before(tex, 0.9) == [0.5, 0.5];
  }

  /** An increasing schedule stays increasing, and ends at T, after normalisation. */
  lemma {:induction false} NormalizeIncreasing(tex: seq<real>, T: real)
    requires |tex| > 0 && Increasing(tex)
    requires T - LastDate(tex) != Epsilon
    ensures var r := NormalizeSchedule(tex, T);
      Increasing(r) && r[|r| - 1] == T
  {
    var r := NormalizeSchedule(tex, T);
    var last := tex[|tex| - 1];
    assert LastDate(tex) == last by {
      assert forall i :: 0 <= i < |tex| ==> tex[i] <= last;
    }
    if T - last < Epsilon {
      BeforeIncreasing(tex, T);
      var b := Before(tex, T);
      forall i, j | 0 <= i < j < |r| ensures r[i] < r[j] {
        if j == |r| - 1 {
          assert r[i] == b[i] && b[i] in b;
        } else {
          assert r[i] == b[i] && r[j] == b[j];
        }
      }
    } else {
      forall i, j | 0 <= i < j < |r| ensures r[i] < r[j] {
        if j == |r| - 1 {
          assert r[i] == tex[i] && tex[i] <= last;
        } else {
          assert r[i] == tex[i] && r[j] == tex[j];
        }
      }
    }
  }

  datatype ScheduleError =
    | EmptySchedule   // max() of an empty schedule
    | SingleDate      // max() over no gaps: the normalised schedule has one date
    | ZeroGap         // two consecutive equal dates: division by zero

  /** No two consecutive dates coincide. */
  predicate NoZeroGap(tex: seq<real>)
  {
    forall i :: 0 <= i < |tex| - 1 ==> tex[i + 1] != tex[i]
  }

  /** int(told / gap) for the gap after date i: how many steps of that gap fit in told. */
  function GapSteps(told: real, tex: seq<real>, i: nat): int
    requires i + 1 < |tex| && tex[i + 1] != tex[i]
  {
    Trunc(told / (tex[i + 1] - tex[i]))
  }

  /** The largest GapSteps over the first m gaps. */
  function MaxGapSteps(told: real, tex: seq<real>, m: nat): (r: int)
    requires 0 < m < |tex| && NoZeroGap(tex)
    ensures forall i :: 0 <= i < m ==> GapSteps(told, tex, i) <= r
    ensures exists i :: 0 <= i < m && GapSteps(told, tex, i) == r
  {
    if m == 1 then GapSteps(told, tex, 0)
    else
      var a, b := MaxGapSteps(told, tex, m - 1), GapSteps(told, tex, m - 1);
      if a >= b then a else b
  }

  /** The step count calc_px hands to the pricers: the largest int(told / gap)
      over the consecutive gaps of the normalised schedule, times nsteps when given. */
  function StepCount(told: real, tex: seq<real>, nsteps: Option<int>): (r: Result<int, ScheduleError>)
    ensures r.Failure? <==> |tex| < 2 || !NoZeroGap(tex)
    ensures |tex| < 2 ==> r == Failure(SingleDate)
    ensures |tex| >= 2 && !NoZeroGap(tex) ==> r == Failure(ZeroGap)
    ensures r.Success? && nsteps.None? ==>
      && (forall i :: 0 <= i < |tex| - 1 ==> GapSteps(told, tex, i) <= r.value)
      && (exists i :: 0 <= i < |tex| - 1 && GapSteps(told, tex, i) == r.value)
    ensures r.Success? && nsteps.Some? ==>
      exists i :: 0 <= i < |tex| - 1 && r.value == GapSteps(told, tex, i) * nsteps.value
                  && forall i' :: 0 <= i' < |tex| - 1 ==> GapSteps(told, tex, i') <= GapSteps(told, tex, i)
  {
    if |tex| < 2 then Failure(SingleDate)
    else if !NoZeroGap(tex) then Failure(ZeroGap)
    else
      var k := MaxGapSteps(told, tex, |tex| - 1);
      match nsteps
      case None => Success(k)
      case Some(f) => Success(k * f)
  }

  /** What calc_px settles before pricing: the normalised schedule and the step count. */
  datatype Plan = Plan(tex: seq<real>, nsteps: int)

  /** calc_px's schedule handling. The step count divides the latest date of the
      schedule as given (not the normalised one) by each normalised gap. */
  function PlanSchedule(T: real, tex: seq<real>, nsteps: Option<int>): (r: Result<Plan, ScheduleError>)
    ensures |tex| == 0 <==> r == Failure(EmptySchedule)
    ensures r.Success? ==>
      && r.value.tex == NormalizeSchedule(tex, T)
      && StepCount(LastDate(tex), r.value.tex, nsteps) == Success(r.value.nsteps)
    ensures |tex| > 0 && StepCount(LastDate(tex), NormalizeSchedule(tex, T), nsteps).Failure? ==>
      r == Failure(StepCount(LastDate(tex), NormalizeSchedule(tex, T), nsteps).error)
  {
    if |tex| == 0 then Failure(EmptySchedule)
    else
      var s := NormalizeSchedule(tex, T);
      match StepCount(LastDate(tex), s, nsteps)
      case Failure(e) => Failure(e)
      case Success(k) => Success(Plan(s, k))
  }

  // ---------------------------------------------------------------------------
  // Lattice valuation

  /** Scheduled exercise: layer k (time k·dt) may exercise when k·dt is a date of tex. */
  predicate Scheduled(tex: seq<real>, dt: real, k: nat)
  {
    (k as real) * dt in tex
  }

  /** The gate _calc_LT applies: on the step that produces layer i−1 it tests i·dt,
      so layer k is gated by the date one step later, (k+1)·dt. */
  predicate ScheduledAsWritten(tex: seq<real>, dt: real, k: nat)
  {
    ((k + 1) as real) * dt in tex
  }

  /** Exercise at layer k exactly when k·dt is an exercise date. */
  function BermudanRule(c: Contract, lat: LatticeSpec, tex: seq<real>): Rule
  {
    Exercise(c, (k: nat) => Scheduled(tex, lat.dt, k))
  }

  /** Exercise at layer k when (k+1)·dt is an exercise date, as the loop gates it. */
  function BermudanRuleAsWritten(c: Contract, lat: LatticeSpec, tex: seq<real>): Rule
  {
    Exercise(c, (k: nat) => ScheduledAsWritten(tex, lat.dt, k))
  }

  /** The Bermudan lattice valuation (asset and option-value trees, root first). */
  function BermudanLT(s0: real, c: Contract, lat: LatticeSpec, tex: seq<real>): (t: Trees)
    ensures t.Shaped(lat.n)
    ensures t.assets[lat.n] == TerminalPrices(s0, lat)
    ensures t.values[lat.n] == Payouts(c, TerminalPrices(s0, lat))
  {
    Valuation(s0, c, lat, BermudanRule(c, lat, tex))
  }

  /** The Bermudan lattice valuation with the gate as written. */
  function BermudanLTAsWritten(s0: real, c: Contract, lat: LatticeSpec, tex: seq<real>): (t: Trees)
    ensures t.Shaped(lat.n)
    ensures t.values[lat.n] == Payouts(c, TerminalPrices(s0, lat))
  {
    Valuation(s0, c, lat, BermudanRuleAsWritten(c, lat, tex))
  }

  /** Each earlier layer is the discounted continuation of the next, raised to the
      intrinsic payout exactly when the layer's time is an exercise date. */
  lemma {:induction false} BermudanLayer(s0: real, c: Contract, lat: LatticeSpec, tex: seq<real>, k: nat, j: nat)
    requires j <= k < lat.n
    ensures var t := BermudanLT(s0, c, lat, tex);
      var C := Continuation(lat, t.values[k + 1]);
      && t.assets[k] == ShiftDown(lat.d, t.assets[k + 1])
      && (Scheduled(tex, lat.dt, k) ==> t.values[k][j] == Max(C[j], Payout(c, t.assets[k][j])))
      && (!Scheduled(tex, lat.dt, k) ==> t.values[k][j] == C[j])
  {
    var S := TerminalPrices(s0, lat);
    var rule := BermudanRule(c, lat, tex);
    var t := RollBack(lat, rule, lat.n, S, Payouts(c, S));
    LayerStep(lat, rule, lat.n, S, Payouts(c, S), k + 1);
    var C := Continuation(lat, t.values[k + 1]);
    var sk := t.assets[k][j];
    assert t.values[k][j] == NodeValue(lat, rule, k, sk, C[j]);
    assert rule.exercisable(k) == Scheduled(tex, lat.dt, k);
    assert NodeValue(lat, rule, k, sk, C[j]) == if rule.exercisable(k) then Max(C[j], Payout(c, sk)) else C[j];
  }

  /** "Between American and European in price": with 0 ≤ p ≤ 1 and df_dt ≥ 0,
      every node of the Bermudan tree is non-negative, at least the European
      value and at most the American (exercisable everywhere) value. */
  lemma {:induction false} BermudanBetween(s0: real, c: Contract, lat: LatticeSpec, tex: seq<real>)
    requires lat.WellFormed()
    ensures var b := BermudanLT(s0, c, lat, tex);
      var e := Valuation(s0, c, lat, Hold);
      var a := Valuation(s0, c, lat, Exercise(c, k => true));
      && (forall k :: 0 <= k <= lat.n ==> AllNonneg(b.values[k]))
      && (forall k :: 0 <= k <= lat.n ==> AtLeast(b.values[k], e.values[k]))
      && (forall k :: 0 <= k <= lat.n ==> AtLeast(a.values[k], b.values[k]))
      && e.Root() <= b.Root() <= a.Root()
  {
    var rule := BermudanRule(c, lat, tex);
    ValuationNonneg(s0, c, lat, rule);
    AdjustedAtLeastEuropean(s0, c, lat, rule);
    var S := TerminalPrices(s0, lat);
    DominatesMoreExercise(lat, c, (k: nat) => Scheduled(tex, lat.dt, k), k => true);
    RollBackDominates(lat, Exercise(c, k => true), rule, lat.n, S, Payouts(c, S), Payouts(c, S));
  }

  /** More exercise dates never lower the price: if every date of tex1 is in tex2,
      the Bermudan tree for tex2 dominates the one for tex1 node by node. */
  lemma {:induction false} ScheduleMonotone(s0: real, c: Contract, lat: LatticeSpec, tex1: seq<real>, tex2: seq<real>)
    requires lat.WellFormed()
    requires forall x :: x in tex1 ==> x in tex2
    ensures var b1, b2 := BermudanLT(s0, c, lat, tex1), BermudanLT(s0, c, lat, tex2);
      && (forall k :: 0 <= k <= lat.n ==> AtLeast(b2.values[k], b1.values[k]))
      && b1.Root() <= b2.Root()
  {
    var S := TerminalPrices(s0, lat);
    DominatesMoreExercise(lat, c, (k: nat) => Scheduled(tex1, lat.dt, k), (k: nat) => Scheduled(tex2, lat.dt, k));
    RollBackDominates(lat, BermudanRule(c, lat, tex2), BermudanRule(c, lat, tex1), lat.n, S,
                      Payouts(c, S), Payouts(c, S));
  }

  /** A schedule holding the time of every layer before maturity, time 0 included,
      prices like the American lattice, which may exercise at every layer. */
  lemma {:induction false} AllStepsIsAmerican(s0: real, c: Contract, lat: LatticeSpec, tex: seq<real>)
    requires forall k: nat :: k < lat.n ==> Scheduled(tex, lat.dt, k)
    ensures BermudanLT(s0, c, lat, tex) == Valuation(s0, c, lat, Exercise(c, k => true))
  {
    var S := TerminalPrices(s0, lat);
    SameExerciseLayers(lat, c, (k: nat) => Scheduled(tex, lat.dt, k), k => true, lat.n, S, Payouts(c, S));
  }

  /** As written, a schedule holding every later step time dt, 2·dt, …, n·dt prices
      like the American lattice, the root included: the step that builds layer k
      tests (k+1)·dt. The corrected gate needs time 0 itself in the schedule for
      that (AllStepsIsAmerican). */
  lemma {:induction false} AsWrittenAllDatesIsAmerican(s0: real, c: Contract, lat: LatticeSpec, tex: seq<real>)
    requires forall k: nat :: k < lat.n ==> ScheduledAsWritten(tex, lat.dt, k)
    ensures BermudanLTAsWritten(s0, c, lat, tex) == Valuation(s0, c, lat, Exercise(c, k => true))
  {
    var S := TerminalPrices(s0, lat);
    SameExerciseLayers(lat, c, (k: nat) => ScheduledAsWritten(tex, lat.dt, k), k => true, lat.n, S, Payouts(c, S));
  }

  /** With dt > 0 and no exercise date before maturity n·dt (for instance tex = (T,)),
      no layer before maturity can exercise and the Bermudan is the European lattice. */
  lemma {:induction false} MaturityOnlyIsEuropean(s0: real, c: Contract, lat: LatticeSpec, tex: seq<real>)
    requires lat.dt > 0.0
    requires forall x :: x in tex ==> x >= (lat.n as real) * lat.dt
    ensures BermudanLT(s0, c, lat, tex) == Valuation(s0, c, lat, Hold)
  {
    var ex := (k: nat) => Scheduled(tex, lat.dt, k);
    forall k: nat | k < lat.n ensures !ex(k) {
      EarlierTime(k, lat.n, lat.dt);
    }
    var S := TerminalPrices(s0, lat);
    NeverExercisableIsHold(lat, c, ex, lat.n, S, Payouts(c, S));
  }

  /** An earlier layer has an earlier time when dt > 0. */
  lemma {:induction false} EarlierTime(k: nat, n: nat, dt: real)
    requires k < n && dt > 0.0
    ensures (k as real) * dt < (n as real) * dt
  {
    var a, b := k as real, n as real;
    assert b - a > 0.0;
    assert b * dt - a * dt == (b - a) * dt;
  }

  /** Every date of the schedule moved one step of length dt earlier. */
  function ShiftEarlier(tex: seq<real>, dt: real): (r: seq<real>)
    ensures |r| == |tex|
    ensures forall i :: 0 <= i < |tex| ==> r[i] + dt == tex[i]
  {
    seq(|tex|, i requires 0 <= i < |tex| => tex[i] - dt)
  }

  /** t + dt is a date of tex exactly when t is a date of the shifted schedule. */
  lemma {:induction false} ShiftedMember(tex: seq<real>, dt: real, t: real)
    ensures t + dt in tex <==> t in ShiftEarlier(tex, dt)
  {
    var sh := ShiftEarlier(tex, dt);
    if t + dt in tex {
      var i :| 0 <= i < |tex| && tex[i] == t + dt;
      assert sh[i] == t;
    }
    if t in sh {
      var i :| 0 <= i < |sh| && sh[i] == t;
      assert tex[i] == t + dt;
    }
  }

  /** The as-written gate of layer k is the corrected gate of the shifted schedule. */
  lemma {:induction false} GateShift(tex: seq<real>, dt: real, k: nat)
    ensures ScheduledAsWritten(tex, dt, k) == Scheduled(ShiftEarlier(tex, dt), dt, k)
  {
    var sh := ShiftEarlier(tex, dt);
    var t, t1 := (k as real) * dt, ((k + 1) as real) * dt;
    assert Scheduled(sh, dt, k) == (t in sh);
    assert ScheduledAsWritten(tex, dt, k) == (t1 in tex);
    NextTime(k as real, dt, t, t1);
    ShiftedMember(tex, dt, t);
  }

  /** The time one layer later: (k+1)·dt = k·dt + dt. */
  lemma {:induction false} NextTime(x: real, dt: real, t: real, t1: real)
    requires t == x * dt && t1 == (x + 1.0) * dt
    ensures t1 == t + dt
  {
  }

  /** The gate as written prices the schedule moved one step earlier: the
      as-written tree for tex is the corrected tree for tex − dt. So a date at
      time t lets the lattice exercise at time t − dt instead. */
  lemma {:induction false} AsWrittenIsShiftedSchedule(s0: real, c: Contract, lat: LatticeSpec, tex: seq<real>)
    ensures BermudanLTAsWritten(s0, c, lat, tex) == BermudanLT(s0, c, lat, ShiftEarlier(tex, lat.dt))
  {
    var sh := ShiftEarlier(tex, lat.dt);
    var w, r := BermudanRuleAsWritten(c, lat, tex), BermudanRule(c, lat, sh);
    forall k: nat | k < lat.n ensures w.exercisable(k) == r.exercisable(k) {
      GateShift(tex, lat.dt, k);
    }
    var S := TerminalPrices(s0, lat);
    SameExerciseLayers(lat, c, w.exercisable, r.exercisable, lat.n, S, Payouts(c, S));
  }

  /** One step (u = 2, d = 1/2, p = 1/2, df_dt = df_T = 4/5, dt = 1). */
  const ExampleLattice := LatticeSpec(1, 2.0, 0.5, 0.5, 0.8, 0.8, 1.0)

  /** A put struck at 4. */
  const ExamplePut := Contract(Put, 4.0)

  /** Exercise dates 0.4 and 1 for maturity 1. */
  const ExampleSchedule := [0.4, 1.0]

  /** calc_px keeps the example schedule and prices it on a one-step lattice:
      the only gap is 0.6, and int(1 / 0.6) = 1. */
  lemma {:induction false} ExamplePlan()
    ensures PlanSchedule(1.0, ExampleSchedule, None) == Success(Plan(ExampleSchedule, 1))
  {
    ExampleNormalized();
    ExampleSteps();
  }

  /** The example schedule already ends at maturity 1, so normalising keeps it. */
  lemma {:induction false} ExampleNormalized()
    ensures LastDate(ExampleSchedule) == 1.0
    ensures NormalizeSchedule(ExampleSchedule, 1.0) == ExampleSchedule
  {
    var tex := ExampleSchedule;
    assert LastDate(tex[..1]) == 0.4;
    assert Before(tex, 1.0) == [0.4] by {
      assert tex[..1] == [0.4];
      assert [0.4][..0] == [];
    }
  }

  /** The single gap 0.6 fits once into 1. */
  lemma {:induction false} ExampleSteps()
    ensures StepCount(1.0, ExampleSchedule, None) == Success(1)
  {
    assert GapSteps(1.0, ExampleSchedule, 0) == 1;
  }

  /** The as-written gate exercises one step too early. On the example, time 0 is
      not an exercise date, so the corrected lattice holds at the root and prices
      11/5, the European price; as written, the root is gated by the date 1 and
      exercises, pricing 3. */
  lemma {:induction false} AsWrittenExercisesEarly()
    ensures BermudanLTAsWritten(1.0, ExamplePut, ExampleLattice, ExampleSchedule).Root() == 3.0
    ensures BermudanLT(1.0, ExamplePut, ExampleLattice, ExampleSchedule).Root() == 2.2
    ensures Valuation(1.0, ExamplePut, ExampleLattice, Hold).Root() == 2.2
  {
    var lat, c, tex := ExampleLattice, ExamplePut, ExampleSchedule;
    assert Pow(0.5, 1) == 0.5 && Pow(2.0, 1) == 2.0;
    var S, O := [0.5, 2.0], [3.5, 2.0];
    assert TerminalPrices(1.0, lat) == S;
    assert Payouts(c, S) == O;
    var C, S0 := [2.2], [1.0];
    assert Continuation(lat, O) == C;
    assert ShiftDown(lat.d, S) == S0;
    assert Payout(c, 1.0) == 3.0;
    assert !Scheduled(tex, lat.dt, 0);
    assert ScheduledAsWritten(tex, lat.dt, 0);
  }
}

=== FILE: bermudan_mc.dfy ===
/** The backward pass of the Bermudan Monte Carlo pricer (Bermudan._calc_MC).
    Prices are held by exercise date: column 0 is the start date and column t
    (1 ≤ t ≤ L) the t-th exercise date, each column holding one entry per path.
    Stepping back from the last date, each path exercises at date t when the
    payout there beats the regression estimate of continuing, and otherwise
    keeps the value already realised at date t+1. The regression estimates are
    inputs here. */
module BermudanMC {
  import opened Arith
  import opened Lattice

  /** Every column holds one entry per path. */
  predicate Rectangular(cols: seq<seq<real>>, npaths: nat)
  {
    forall t :: 0 <= t < |cols| ==> |cols[t]| == npaths
  }

  /** np.where(payout > estimate, payout, next): exercise where the payout beats
      the continuation estimate, otherwise keep the later realised value. */
  function Decide(payout: seq<real>, estimate: seq<real>, next: seq<real>): (r: seq<real>)
    requires |payout| == |estimate| == |next|
    ensures |r| == |payout|
    ensures forall p :: 0 <= p < |r| ==> payout[p] > estimate[p] ==> r[p] == payout[p]
    ensures forall p :: 0 <= p < |r| ==> payout[p] <= estimate[p] ==> r[p] == next[p]
  {
    seq(|payout|, p requires 0 <= p < |payout| => if payout[p] > estimate[p] then payout[p] else next[p])
  }

  /** The inputs of one backward pass: payouts and estimates by date, L+1 columns
      of npaths entries each, and the lowest date the loop rewrites. */
  predicate ValidPass(payouts: seq<seq<real>>, est: seq<seq<real>>, npaths: nat, lowest: nat)
  {
    && |payouts| >= 2
    && |est| == |payouts|
    && Rectangular(payouts, npaths)
    && Rectangular(est, npaths)
    && lowest >= 1
  }

  /** The value realised along each path from date t on: the last date keeps its
      payout; dates lowest..L−1 decide between exercising and the later value;
      dates below lowest are left as their payouts. Whatever the estimates, each
      path realises its own payout at date t or at some later date. */
  function Realized(payouts: seq<seq<real>>, est: seq<seq<real>>, npaths: nat, lowest: nat, t: nat): (r: seq<real>)
    requires ValidPass(payouts, est, npaths, lowest) && t < |payouts|
    ensures |r| == npaths
    ensures forall p :: 0 <= p < npaths ==> exists s :: t <= s < |payouts| && r[p] == payouts[s][p]
    decreases |payouts| - t
  {
    if t == |payouts| - 1 || t < lowest then payouts[t]
    else Decide(payouts[t], est[t], Realized(payouts, est, npaths, lowest, t + 1))
  }

  /** The loop of _calc_MC over tex_index = L−1 down to lowest, then column 0 := column 1. */
  method BackwardPass(payouts: seq<seq<real>>, est: seq<seq<real>>, npaths: nat, lowest: nat)
    returns (cols: seq<seq<real>>)
    requires ValidPass(payouts, est, npaths, lowest)
    ensures |cols| == |payouts|
    ensures forall t :: 1 <= t < |cols| ==> cols[t] == Realized(payouts, est, npaths, lowest, t)
    ensures cols[0] == cols[1]
  {
    cols := payouts;
    var t: int := |payouts| - 2;
    while t >= lowest
      invariant lowest - 1 <= t <= |payouts| - 2 || t == |payouts| - 2
      invariant |cols| == |payouts|
      invariant forall s :: 0 <= s <= t ==> cols[s] == payouts[s]
      invariant forall s :: t < s < |cols| ==> cols[s] == Realized(payouts, est, npaths, lowest, s)
      decreases t
    {
      var next := Decide(payouts[t], est[t], cols[t + 1]);
      assert next == Realized(payouts, est, npaths, lowest, t);
      cols := cols[t := next];
      t := t - 1;
    }
    cols := cols[0 := cols[1]];
  }

  /** The Monte Carlo price: the mean over paths of the value realised at date 1,
      which column 0 copies. Not discounted, as in the source. Intrinsic payouts
      are non-negative, and then so is the price. */
  function MCPrice(payouts: seq<seq<real>>, est: seq<seq<real>>, npaths: nat, lowest: nat): (px: real)
    requires ValidPass(payouts, est, npaths, lowest) && npaths > 0
    ensures (forall s :: 0 <= s < |payouts| ==> AllNonneg(payouts[s])) ==> px >= 0.0
  {
    RealizedMeanNonneg(payouts, est, npaths, lowest);
    Mean(Realized(payouts, est, npaths, lowest, 1))
  }

  /** Non-negative payouts give a non-negative mean realised value at date 1. */
  lemma {:induction false} RealizedMeanNonneg(payouts: seq<seq<real>>, est: seq<seq<real>>, npaths: nat, lowest: nat)
    requires ValidPass(payouts, est, npaths, lowest) && npaths > 0
    ensures (forall s :: 0 <= s < |payouts| ==> AllNonneg(payouts[s])) ==>
      Mean(Realized(payouts, est, npaths, lowest, 1)) >= 0.0
  {
    if forall s :: 0 <= s < |payouts| ==> AllNonneg(payouts[s]) {
      RealizedNonneg(payouts, est, npaths, lowest, 1);
      SumNonneg(Realized(payouts, est, npaths, lowest, 1));
    }
  }

  /** The loop bound as written: range(L−1, 1, −1) stops above index 1. */
  const LowestAsWritten: nat := 2

  /** The bound that steps back through every exercise date, stopping at the start date. */
  const LowestCorrected: nat := 1

  /** The intrinsic payouts max(sign·(S − K), 0) of every simulated price, by
      date: one column per date, never negative, and positive exactly where that
      path's price is in the money. */
  function PayoutColumns(c: Contract, paths: seq<seq<real>>): (cols: seq<seq<real>>)
    ensures |cols| == |paths|
    ensures forall t :: 0 <= t < |cols| ==> |cols[t]| == |paths[t]| && AllNonneg(cols[t])
    ensures forall t, p :: 0 <= t < |cols| && 0 <= p < |paths[t]| ==>
      (cols[t][p] > 0.0 <==> (c.right.Call? && paths[t][p] > c.strike) || (c.right.Put? && paths[t][p] < c.strike))
  {
    seq(|paths|, t requires 0 <= t < |paths| => Payouts(c, paths[t]))
  }

  /** The price of payouts taken from simulated prices is never negative, whatever
      the estimates and the loop bound. */
  lemma {:induction false} MCPriceOfPathsNonneg(c: Contract, paths: seq<seq<real>>, est: seq<seq<real>>,
                                                npaths: nat, lowest: nat)
    requires ValidPass(PayoutColumns(c, paths), est, npaths, lowest) && npaths > 0
    ensures MCPrice(PayoutColumns(c, paths), est, npaths, lowest) >= 0.0
  {
  }

  /** Non-negative payouts give non-negative realised values and a non-negative price. */
  lemma {:induction false} RealizedNonneg(payouts: seq<seq<real>>, est: seq<seq<real>>, npaths: nat, lowest: nat, t: nat)
    requires ValidPass(payouts, est, npaths, lowest) && t < |payouts|
    requires forall s :: 0 <= s < |payouts| ==> AllNonneg(payouts[s])
    ensures AllNonneg(Realized(payouts, est, npaths, lowest, t))
  {
    var r := Realized(payouts, est, npaths, lowest, t);
    forall p | 0 <= p < npaths ensures r[p] >= 0.0 {
      var s :| t <= s < |payouts| && r[p] == payouts[s][p];
      assert AllNonneg(payouts[s]);
    }
  }

  /** A path that never beats its estimate from date t on realises its last payout. */
  lemma {:induction false} NeverExercised(payouts: seq<seq<real>>, est: seq<seq<real>>, npaths: nat,
                                          lowest: nat, t: nat, p: nat)
    requires ValidPass(payouts, est, npaths, lowest) && lowest <= t < |payouts| && p < npaths
    requires forall s :: t <= s < |payouts| ==> payouts[s][p] <= est[s][p]
    ensures Realized(payouts, est, npaths, lowest, t)[p] == payouts[|payouts| - 1][p]
    decreases |payouts| - t
  {
    if t < |payouts| - 1 {
      NeverExercised(payouts, est, npaths, lowest, t + 1, p);
    }
  }

  /** As written, date 1 is never rewritten: the price is the mean payout at the
      first exercise date, whatever the estimates and the later payouts. */
  lemma {:induction false} AsWrittenIgnoresLaterDates(payouts: seq<seq<real>>, est: seq<seq<real>>, npaths: nat)
    requires ValidPass(payouts, est, npaths, LowestAsWritten) && npaths > 0
    ensures MCPrice(payouts, est, npaths, LowestAsWritten) == Mean(payouts[1])
  {
  }

  /** With the corrected bound, date 1 decides like every other date. */
  lemma {:induction false} CorrectedDecidesAtFirstDate(payouts: seq<seq<real>>, est: seq<seq<real>>, npaths: nat)
    requires ValidPass(payouts, est, npaths, LowestCorrected) && |payouts| >= 3
    ensures Realized(payouts, est, npaths, LowestCorrected, 1)
         == Decide(payouts[1], est[1], Realized(payouts, est, npaths, LowestCorrected, 2))
  {
  }

  /** When the estimates at the first exercise date never exceed what holding
      then realises, the loop as written, which always exercises there, prices
      no higher than the corrected loop. */
  lemma {:induction false} AsWrittenNoHigher(payouts: seq<seq<real>>, est: seq<seq<real>>, npaths: nat)
    requires ValidPass(payouts, est, npaths, LowestCorrected) && |payouts| >= 3 && npaths > 0
    requires forall p :: 0 <= p < npaths && payouts[1][p] <= est[1][p] ==>
      payouts[1][p] <= Realized(payouts, est, npaths, LowestCorrected, 2)[p]
    ensures MCPrice(payouts, est, npaths, LowestAsWritten) <= MCPrice(payouts, est, npaths, LowestCorrected)
  {
    var w := Realized(payouts, est, npaths, LowestAsWritten, 1);
    var r := Realized(payouts, est, npaths, LowestCorrected, 1);
    assert w == payouts[1];
    forall p | 0 <= p < npaths ensures w[p] <= r[p] {
      assert r == Decide(payouts[1], est[1], Realized(payouts, est, npaths, LowestCorrected, 2));
    }
    MeanMono(w, r);
  }

  /** One path, two exercise dates: the payout is 0 at the first date and 5 at the
      second, and continuing is estimated at 2 at the first date. Holding is
      clearly right, and the corrected pass prices 5, but as written the price is 0. */
  lemma {:induction false} AsWrittenExercisesWorthless()
    ensures var payouts := [[0.0], [0.0], [5.0]];
      var est := [[0.0], [2.0], [0.0]];
      && MCPrice(payouts, est, 1, LowestAsWritten) == 0.0
      && MCPrice(payouts, est, 1, LowestCorrected) == 5.0
  {
    var payouts := [[0.0], [0.0], [5.0]];
    var est := [[0.0], [2.0], [0.0]];
    assert Realized(payouts, est, 1, LowestCorrected, 2) == [5.0];
    assert Realized(payouts, est, 1, LowestCorrected, 1) == [5.0];
    assert Sum([5.0]) == 5.0 by {
      assert [5.0][..0] == [];
    }
    assert Sum([0.0]) == 0.0 by {
      assert [0.0][..0] == [];
    }
  }
}

=== FILE: binomial.dfy ===
/** The European (Hold) rollback in closed form: after k backward steps, a node's
    value is df_dt^k times the binomially weighted sum of the k+1 terminal values
    it can reach. */
module Binomial {
  import opened Arith
  import opened Lattice

  /** The value k backward steps before index j of V, by the one-step recurrence. */
  function Expect(lat: LatticeSpec, k: nat, V: seq<real>, j: nat): real
    requires j + k < |V|
    decreases k
  {
    if k == 0 then V[j]
    else StepBack(lat, Expect(lat, k - 1, V, j), Expect(lat, k - 1, V, j + 1))
  }

  /** The probability weight of reaching i up-moves in k steps, by Pascal's rule:
      a path ends i up after k steps if it was i up after k−1 steps and went down,
      or i−1 up and went up. */
  function Weight(p: real, k: nat, i: nat): real
    decreases k
  {
    if k == 0 then (if i == 0 then 1.0 else 0.0)
    else if i == 0 then (1.0 - p) * Weight(p, k - 1, 0)
    else Mix(p, Weight(p, k - 1, i), Weight(p, k - 1, i - 1))
  }

  /** No path climbs more than one node per step. */
  lemma {:induction false} WeightAbove(p: real, k: nat, i: nat)
    requires i > k
    ensures Weight(p, k, i) == 0.0
    decreases k
  {
    if k > 0 {
      WeightAbove(p, k - 1, i);
      WeightAbove(p, k - 1, i - 1);
    }
  }

  /** The binomial probability C(k,i)·p^i·(1−p)^(k−i) in closed form. */
  function BinomialPmf(p: real, k: nat, i: nat): real
    requires i <= k
  {
    (Choose(k, i) as real) * Pow(p, i) * Pow(1.0 - p, k - i)
  }

  /** The Pascal weights are the binomial probabilities: Weight(p,k,i) = C(k,i)·p^i·(1−p)^(k−i). */
  lemma {:induction false} WeightIsBinomialPmf(p: real, k: nat, i: nat)
    requires i <= k
    ensures Weight(p, k, i) == BinomialPmf(p, k, i)
    decreases k
  {
    if k == 0 {
    } else if i == 0 {
      WeightIsBinomialPmf(p, k - 1, 0);
      WeightPmfLow(p, k);
    } else if i == k {
      WeightIsBinomialPmf(p, k - 1, k - 1);
      WeightPmfHigh(p, k);
    } else {
      WeightIsBinomialPmf(p, k - 1, i);
      WeightIsBinomialPmf(p, k - 1, i - 1);
      WeightPmfMid(p, k, i);
    }
  }

  /** The step of WeightIsBinomialPmf for 0 < i < k: Pascal's rule on both sides. */
  lemma {:induction false} WeightPmfMid(p: real, k: nat, i: nat)
    requires 0 < i < k
    requires Weight(p, k - 1, i) == BinomialPmf(p, k - 1, i)
    requires Weight(p, k - 1, i - 1) == BinomialPmf(p, k - 1, i - 1)
    ensures Weight(p, k, i) == BinomialPmf(p, k, i)
  {
    BinomialPmfPascal(p, k, i);
  }

  /** The step of WeightIsBinomialPmf at i = 0: only down-moves. */
  lemma {:induction false} WeightPmfLow(p: real, k: nat)
    requires k > 0 && Weight(p, k - 1, 0) == BinomialPmf(p, k - 1, 0)
    ensures Weight(p, k, 0) == BinomialPmf(p, k, 0)
  {
    assert Pow(1.0 - p, k) == (1.0 - p) * Pow(1.0 - p, k - 1);
  }

  /** The step of WeightIsBinomialPmf at i = k: only up-moves. */
  lemma {:induction false} WeightPmfHigh(p: real, k: nat)
    requires k > 0 && Weight(p, k - 1, k - 1) == BinomialPmf(p, k - 1, k - 1)
    ensures Weight(p, k, k) == BinomialPmf(p, k, k)
  {
    PmfDiagonal(p, k);
    PmfDiagonal(p, k - 1);
    WeightDiagonalStep(p, k);
  }

  /** Reaching k up-moves in k steps has probability p^k. */
  lemma {:induction false} PmfDiagonal(p: real, k: nat)
    ensures BinomialPmf(p, k, k) == Pow(p, k)
  {
    ChooseDiagonal(k);
    assert Pow(1.0 - p, 0) == 1.0;
  }

  /** The top node is reached only by moving up from the previous top node. */
  lemma {:induction false} WeightDiagonalStep(p: real, k: nat)
    requires k > 0
    ensures Weight(p, k, k) == p * Weight(p, k - 1, k - 1)
  {
    WeightAbove(p, k - 1, k);
    MixNoDown(p, Weight(p, k - 1, k), Weight(p, k - 1, k - 1));
  }

  /** With nothing below, the weighted average keeps only the up share p·b. */
  lemma {:induction false} MixNoDown(p: real, a: real, b: real)
    requires a == 0.0
    ensures Mix(p, a, b) == p * b
  {
  }

  /** Pascal's rule for the closed form, for 0 < i < k. */
  lemma {:induction false} BinomialPmfPascal(p: real, k: nat, i: nat)
    requires 0 < i < k
    ensures BinomialPmf(p, k, i) == Mix(p, BinomialPmf(p, k - 1, i), BinomialPmf(p, k - 1, i - 1))
  {
    var q := 1.0 - p;
    var c1, c2 := Choose(k - 1, i - 1) as real, Choose(k - 1, i) as real;
    var x, y := Pow(p, i - 1), Pow(q, k - 1 - i);
    var c, px, qy := c1 + c2, p * x, q * y;
    PowSucc(p, i - 1, i);
    PowSucc(q, k - 1 - i, k - i);
    PowSucc(q, k - 1 - i, (k - 1) - (i - 1));
    PmfAt(p, k, i, c, px, qy);
    PmfAt(p, k - 1, i, c2, px, y);
    PmfAt(p, k - 1, i - 1, c1, x, qy);
    PmfAlgebra(p, q, c1, c2, x, y, c, px, qy);
  }

  /** The closed form from its three factors. */
  lemma {:induction false} PmfAt(p: real, n: nat, i: nat, c: real, x: real, y: real)
    requires i <= n && c == Choose(n, i) as real && x == Pow(p, i) && y == Pow(1.0 - p, n - i)
    ensures BinomialPmf(p, n, i) == c * x * y
  {
  }

  /** The algebra of Pascal's rule for the closed form. */
  lemma {:induction false} PmfAlgebra(p: real, q: real, c1: real, c2: real, x: real, y: real,
                                      c: real, px: real, qy: real)
    requires q == 1.0 - p && c == c1 + c2 && px == p * x && qy == q * y
    ensures c * px * qy == Mix(p, c2 * px * y, c1 * x * qy)
  {
  }

  /** Weight(p,k,i)·V[j+i]: the contribution of V[j+i] to a node k steps back. */
  function Term(p: real, k: nat, i: nat, V: seq<real>, j: nat): real
    requires i <= k && j + i < |V|
  {
    Weight(p, k, i) * V[j + i]
  }

  /** Sum of the first m terms, i = 0..m−1. */
  function PartialSum(p: real, k: nat, V: seq<real>, j: nat, m: nat): real
    requires m <= k + 1 && j + k < |V|
  {
    if m == 0 then 0.0 else PartialSum(p, k, V, j, m - 1) + Term(p, k, m - 1, V, j)
  }

  /** Σ_{i=0..k} C(k,i)·p^i·(1−p)^(k−i)·V[j+i]. */
  function BinomialSum(p: real, k: nat, V: seq<real>, j: nat): real
    requires j + k < |V|
  {
    PartialSum(p, k, V, j, k + 1)
  }

  /** Every node of the European (Hold) rollback from layer i is the recurrence
      applied i−k times to the values of layer i. */
  lemma {:induction false} HoldRollBackIsExpect(lat: LatticeSpec, i: nat, S: seq<real>, O: seq<real>, k: nat, j: nat)
    requires i <= lat.n && |S| == i + 1 && |O| == i + 1
    requires j <= k <= i
    ensures RollBack(lat, Hold, i, S, O).values[k][j] == Expect(lat, i - k, O, j)
    decreases i - k
  {
    if k < i {
      var t := RollBack(lat, Hold, i, S, O);
      LayerStep(lat, Hold, i, S, O, k + 1);
      HoldRollBackIsExpect(lat, i, S, O, k + 1, j);
      HoldRollBackIsExpect(lat, i, S, O, k + 1, j + 1);
      assert t.values[k][j] == Continuation(lat, t.values[k + 1])[j];
    }
  }

  /** The Pascal step for one term. */
  lemma {:induction false} TermPascal(p: real, k: nat, m: nat, V: seq<real>, j: nat)
    requires 0 < m <= k && j + k + 1 < |V|
    ensures Term(p, k + 1, m, V, j) == Mix(p, Term(p, k, m, V, j), Term(p, k, m - 1, V, j + 1))
  {
    assert V[j + 1 + (m - 1)] == V[j + m];
    MixScale(p, Weight(p, k, m), Weight(p, k, m - 1), V[j + m]);
  }

  /** Scaling both values scales their weighted average. */
  lemma {:induction false} MixScale(p: real, a: real, b: real, v: real)
    ensures Mix(p, a, b) * v == Mix(p, a * v, b * v)
  {
  }

  /** The all-down term gains one factor 1−p per extra step. */
  lemma {:induction false} TermPascalBase(p: real, k: nat, V: seq<real>, j: nat)
    requires j + k + 1 < |V|
    ensures Term(p, k + 1, 0, V, j) == (1.0 - p) * Term(p, k, 0, V, j)
  {
  }

  /** Pascal's rule for the first m+1 terms: the (k+1)-step sum splits into the
      down successor's first m+1 terms and the up successor's first m terms. */
  predicate PascalUpTo(p: real, k: nat, V: seq<real>, j: nat, m: nat)
    requires m <= k && j + k + 1 < |V|
  {
    PartialSum(p, k + 1, V, j, m + 1) == Mix(p, PartialSum(p, k, V, j, m + 1), PartialSum(p, k, V, j + 1, m))
  }

  /** Pascal's rule carried through the first m+1 terms of the sums. */
  lemma {:induction false} PartialPascal(p: real, k: nat, V: seq<real>, j: nat, m: nat)
    requires m <= k && j + k + 1 < |V|
    ensures PascalUpTo(p, k, V, j, m)
    decreases m
  {
    if m == 0 {
      PartialPascalBase(p, k, V, j);
    } else {
      PartialPascal(p, k, V, j, m - 1);
      PartialPascalStep(p, k, V, j, m);
    }
  }

  /** The first term alone: the all-down path gains one factor 1−p. */
  lemma {:induction false} PartialPascalBase(p: real, k: nat, V: seq<real>, j: nat)
    requires j + k + 1 < |V|
    ensures PascalUpTo(p, k, V, j, 0)
  {
    TermPascalBase(p, k, V, j);
  }

  /** The inductive step of PartialPascal: adding term m to each sum keeps the identity. */
  lemma {:induction false} PartialPascalStep(p: real, k: nat, V: seq<real>, j: nat, m: nat)
    requires 0 < m <= k && j + k + 1 < |V|
    requires PascalUpTo(p, k, V, j, m - 1)
    ensures PascalUpTo(p, k, V, j, m)
  {
    TermPascal(p, k, m, V, j);
    PartialSumsExtend(p, k, V, j, m);
    PascalCombine(p,
                  PartialSum(p, k + 1, V, j, m + 1), PartialSum(p, k, V, j, m + 1), PartialSum(p, k, V, j + 1, m),
                  PartialSum(p, k + 1, V, j, m), PartialSum(p, k, V, j, m), PartialSum(p, k, V, j + 1, m - 1),
                  Term(p, k + 1, m, V, j), Term(p, k, m, V, j), Term(p, k, m - 1, V, j + 1));
  }

  /** Each of the three sums of PascalUpTo gains its next term. */
  lemma {:induction false} PartialSumsExtend(p: real, k: nat, V: seq<real>, j: nat, m: nat)
    requires 0 < m <= k && j + k + 1 < |V|
    ensures PartialSum(p, k + 1, V, j, m + 1) == PartialSum(p, k + 1, V, j, m) + Term(p, k + 1, m, V, j)
    ensures PartialSum(p, k, V, j, m + 1) == PartialSum(p, k, V, j, m) + Term(p, k, m, V, j)
    ensures PartialSum(p, k, V, j + 1, m) == PartialSum(p, k, V, j + 1, m - 1) + Term(p, k, m - 1, V, j + 1)
  {
  }

  /** Weighted averages add up: if c and t are the averages of (a, b) and
      (ta, tb), then c + t is the average of (a + ta, b + tb). */
  lemma {:induction false} PascalCombine(p: real, s1: real, s2: real, s3: real,
                                         c: real, a: real, b: real, t: real, ta: real, tb: real)
    requires s1 == c + t && s2 == a + ta && s3 == b + tb
    requires c == Mix(p, a, b)
    requires t == Mix(p, ta, tb)
    ensures s1 == Mix(p, s2, s3)
  {
  }

  /** Pascal's rule for the full sums: one more step splits into the down and up successors. */
  lemma {:induction false} BinomialPascal(p: real, k: nat, V: seq<real>, j: nat)
    requires j + k + 1 < |V|
    ensures BinomialSum(p, k + 1, V, j) == Mix(p, BinomialSum(p, k, V, j), BinomialSum(p, k, V, j + 1))
  {
    PartialPascal(p, k, V, j, k);
    var A, B := PartialSum(p, k, V, j, k + 1), PartialSum(p, k, V, j + 1, k);
    var top, up := Term(p, k + 1, k + 1, V, j), Term(p, k, k, V, j + 1);
    var m := Mix(p, A, B);
    PartialSumLast(p, k + 1, V, j, k + 2);
    PartialSumLast(p, k, V, j + 1, k + 1);
    TermDiagonal(p, k, V, j);
    MixNoDown(p, 0.0, up);
    PascalCombine(p, BinomialSum(p, k + 1, V, j), A, BinomialSum(p, k, V, j + 1), m, A, B, top, 0.0, up);
  }

  /** A partial sum is the one before it plus its last term. */
  lemma {:induction false} PartialSumLast(p: real, k: nat, V: seq<real>, j: nat, m: nat)
    requires 0 < m <= k + 1 && j + k < |V|
    ensures PartialSum(p, k, V, j, m) == PartialSum(p, k, V, j, m - 1) + Term(p, k, m - 1, V, j)
  {
  }

  /** The top term one step further is p times the top term of the up successor. */
  lemma {:induction false} TermDiagonal(p: real, k: nat, V: seq<real>, j: nat)
    requires j + k + 1 < |V|
    ensures Term(p, k + 1, k + 1, V, j) == p * Term(p, k, k, V, j + 1)
  {
    WeightDiagonalStep(p, k + 1);
    var w1, w, v := Weight(p, k + 1, k + 1), Weight(p, k, k), V[j + k + 1];
    TermAt(p, k + 1, k + 1, V, j, w1, v);
    TermAt(p, k, k, V, j + 1, w, v);
    MulAssoc(p, w, v, w1);
  }

  /** A term from its weight and its value. */
  lemma {:induction false} TermAt(p: real, k: nat, i: nat, V: seq<real>, j: nat, w: real, v: real)
    requires i <= k && j + i < |V| && w == Weight(p, k, i) && v == V[j + i]
    ensures Term(p, k, i, V, j) == w * v
  {
  }

  /** (a·b)·c = a·(b·c), with d = a·b. */
  lemma {:induction false} MulAssoc(a: real, b: real, c: real, d: real)
    requires d == a * b
    ensures d * c == a * (b * c)
  {
  }

  /** The recurrence after k steps equals df_dt^k times the binomial sum. */
  predicate ExpectClosed(lat: LatticeSpec, k: nat, V: seq<real>, j: nat)
    requires j + k < |V|
  {
    Expect(lat, k, V, j) == Pow(lat.dfDt, k) * BinomialSum(lat.p, k, V, j)
  }

  /** The recurrence equals df_dt^k times the binomial sum. */
  lemma {:induction false} ExpectIsBinomialSum(lat: LatticeSpec, k: nat, V: seq<real>, j: nat)
    requires j + k < |V|
    ensures ExpectClosed(lat, k, V, j)
    decreases k
  {
    if k == 0 {
      BinomialSumZero(lat.p, V, j);
    } else {
      ExpectIsBinomialSum(lat, k - 1, V, j);
      ExpectIsBinomialSum(lat, k - 1, V, j + 1);
      ExpectClosedStep(lat, k - 1, V, j);
    }
  }

  /** Inductive step of ExpectIsBinomialSum. */
  lemma {:induction false} ExpectClosedStep(lat: LatticeSpec, k: nat, V: seq<real>, j: nat)
    requires j + k + 1 < |V|
    requires ExpectClosed(lat, k, V, j) && ExpectClosed(lat, k, V, j + 1)
    ensures ExpectClosed(lat, k + 1, V, j)
  {
    var p, df := lat.p, lat.dfDt;
    BinomialPascal(p, k, V, j);
    ExpectStep(lat, k, V, j);
    PowStep(df, k);
    FactorOut(p, df, Expect(lat, k + 1, V, j), Expect(lat, k, V, j), Expect(lat, k, V, j + 1),
              Pow(df, k), BinomialSum(p, k, V, j), BinomialSum(p, k, V, j + 1),
              Pow(df, k + 1), BinomialSum(p, k + 1, V, j));
  }

  /** One more step back is the discounted average of the two successors' recurrences. */
  lemma {:induction false} ExpectStep(lat: LatticeSpec, k: nat, V: seq<real>, j: nat)
    requires j + k + 1 < |V|
    ensures Expect(lat, k + 1, V, j) == lat.dfDt * Mix(lat.p, Expect(lat, k, V, j), Expect(lat, k, V, j + 1))
  {
  }

  /** With no steps left the sum is the value itself. */
  lemma {:induction false} BinomialSumZero(p: real, V: seq<real>, j: nat)
    requires j < |V|
    ensures BinomialSum(p, 0, V, j) == V[j]
  {
    assert PartialSum(p, 0, V, j, 1) == PartialSum(p, 0, V, j, 0) + Term(p, 0, 0, V, j);
    assert Weight(p, 0, 0) == 1.0;
    assert Term(p, 0, 0, V, j) == V[j];
  }

  /** The arithmetic of ExpectClosedStep: a common factor f pulls out of a weighted average. */
  lemma {:induction false} FactorOut(p: real, df: real, e: real, e1: real, e2: real,
                                     f: real, a: real, b: real, g: real, c: real)
    requires e == df * Mix(p, e1, e2)
    requires e1 == f * a && e2 == f * b
    requires g == df * f && c == Mix(p, a, b)
    ensures e == g * c
  {
    MixScale(p, a, b, f);
  }

  /** v is df_dt^m times the binomially weighted sum of the m+1 values V[j..j+m]. */
  predicate DiscountedBinomial(lat: LatticeSpec, v: real, m: nat, V: seq<real>, j: nat)
    requires j + m < |V|
  {
    v == Pow(lat.dfDt, m) * BinomialSum(lat.p, m, V, j)
  }

  /** Every node of the European value tree is df_dt^(n−k) times the binomially
      weighted sum of the terminal payoffs it can reach. */
  lemma {:induction false} EuropeanIsBinomialSum(lat: LatticeSpec, S: seq<real>, O: seq<real>, k: nat, j: nat)
    requires |S| == lat.n + 1 && |O| == lat.n + 1 && j <= k <= lat.n
    ensures DiscountedBinomial(lat, RollBack(lat, Hold, lat.n, S, O).values[k][j], lat.n - k, O, j)
  {
    HoldRollBackIsExpect(lat, lat.n, S, O, k, j);
    ExpectDiscounted(lat, RollBack(lat, Hold, lat.n, S, O).values[k][j], lat.n - k, O, j);
  }

  /** A value equal to the recurrence is the discounted binomial sum. */
  lemma {:induction false} ExpectDiscounted(lat: LatticeSpec, v: real, k: nat, V: seq<real>, j: nat)
    requires j + k < |V| && v == Expect(lat, k, V, j)
    ensures DiscountedBinomial(lat, v, k, V, j)
  {
    ExpectIsBinomialSum(lat, k, V, j);
  }

  /** The European lattice price is df_dt^n · Σ_j Weight(p,n,j)·O_j. */
  lemma {:induction false} EuropeanRoot(lat: LatticeSpec, S: seq<real>, O: seq<real>)
    requires |S| == lat.n + 1 && |O| == lat.n + 1
    ensures DiscountedBinomial(lat, RollBack(lat, Hold, lat.n, S, O).Root(), lat.n, O, 0)
  {
    HoldRollBackIsExpect(lat, lat.n, S, O, 0, 0);
    ExpectDiscounted(lat, RollBack(lat, Hold, lat.n, S, O).Root(), lat.n, O, 0);
  }

  /** Undiscounted, the recurrence keeps a constant layer constant. */
  lemma {:induction false} ExpectConstant(lat: LatticeSpec, k: nat, V: seq<real>, j: nat, v: real)
    requires lat.dfDt == 1.0 && j + k < |V|
    requires forall m :: 0 <= m < |V| ==> V[m] == v
    ensures Expect(lat, k, V, j) == v
    decreases k
  {
    if k > 0 {
      ExpectConstant(lat, k - 1, V, j, v);
      ExpectConstant(lat, k - 1, V, j + 1, v);
      assert (1.0 - lat.p) * v + lat.p * v == v;
    }
  }

  /** The weights Weight(p,k,0..k) sum to one: the binomial sum of a layer of ones is 1. */
  lemma {:induction false} WeightsSumToOne(p: real, k: nat, V: seq<real>)
    requires k < |V| && forall m :: 0 <= m < |V| ==> V[m] == 1.0
    ensures BinomialSum(p, k, V, 0) == 1.0
  {
    var lat := LatticeSpec(k, 1.0, 1.0, p, 1.0, 1.0, 1.0);
    ExpectIsBinomialSum(lat, k, V, 0);
    ExpectConstant(lat, k, V, 0, 1.0);
    PowOne(k);
  }

  /** With 0 ≤ p ≤ 1 every weight is non-negative. */
  lemma {:induction false} WeightNonneg(p: real, k: nat, i: nat)
    requires 0.0 <= p <= 1.0
    ensures Weight(p, k, i) >= 0.0
    decreases k
  {
    if k > 0 {
      WeightNonneg(p, k - 1, i);
      if i > 0 {
        WeightNonneg(p, k - 1, i - 1);
        WeightNonnegMid(p, k, i);
      } else {
        WeightNonnegLow(p, k);
      }
    }
  }

  lemma {:induction false} WeightNonnegLow(p: real, k: nat)
    requires 0.0 <= p <= 1.0 && k > 0 && Weight(p, k - 1, 0) >= 0.0
    ensures Weight(p, k, 0) >= 0.0
  {
    MulNonneg(1.0 - p, Weight(p, k - 1, 0));
  }

  lemma {:induction false} WeightNonnegMid(p: real, k: nat, i: nat)
    requires 0.0 <= p <= 1.0 && k > 0 && i > 0
    requires Weight(p, k - 1, i) >= 0.0 && Weight(p, k - 1, i - 1) >= 0.0
    ensures Weight(p, k, i) >= 0.0
  {
    MixNonneg(p, Weight(p, k - 1, i), Weight(p, k - 1, i - 1));
  }

  /** A probability-weighted average of non-negative values is non-negative. */
  lemma {:induction false} MixNonneg(p: real, a: real, b: real)
    requires 0.0 <= p <= 1.0 && a >= 0.0 && b >= 0.0
    ensures Mix(p, a, b) >= 0.0
  {
    MulNonneg(1.0 - p, a);
    MulNonneg(p, b);
  }

  lemma {:induction false} MulNonneg(x: real, y: real)
    requires x >= 0.0 && y >= 0.0
    ensures x * y >= 0.0
  {
  }

  /** With 0 ≤ p ≤ 1, a binomial sum of non-negative values is non-negative. */
  lemma {:induction false} PartialSumNonneg(p: real, k: nat, V: seq<real>, j: nat, m: nat)
    requires 0.0 <= p <= 1.0 && m <= k + 1 && j + k < |V| && AllNonneg(V)
    ensures PartialSum(p, k, V, j, m) >= 0.0
    decreases m
  {
    if m > 0 {
      PartialSumNonneg(p, k, V, j, m - 1);
      WeightNonneg(p, k, m - 1);
      assert V[j + m - 1] >= 0.0;
      assert Term(p, k, m - 1, V, j) >= 0.0;
    }
  }
}

=== FILE: chooser.dfy ===
/** The lattice pricer of the Chooser class (Chooser._calc_LT) and the input
    checks of the chooser() helper. The lattice prices the plain European
    contract: with history kept it rolls the tree back with no adjustment and
    reports the root; without history it evaluates the same price in one pass as
    df_T times a binomially weighted sum of the terminal payouts, the weights
    computed from log-factorials. */
module Chooser {
  import opened Arith
  import opened Wrappers
  import opened Lattice
  import opened Binomial

  // ---------------------------------------------------------------------------
  // The lattice pricer

  /** The weight exp(csl[n] − csl[j] − csl[n−j] + j·log p + (n−j)·log(1−p)), where
      csl[m] = log m!, evaluated exactly: n!/(j!(n−j)!)·p^j·(1−p)^(n−j). */
  function LogFactorialWeight(p: real, n: nat, j: nat): real
    requires j <= n
  {
    FactorialRatio(n, j) * Pow(p, j) * Pow(1.0 - p, n - j)
  }

  /** The log-factorial weight is the probability of reaching j up-moves in n steps. */
  lemma {:induction false} LogFactorialWeightIsPascal(p: real, n: nat, j: nat)
    requires j <= n
    ensures LogFactorialWeight(p, n, j) == Weight(p, n, j)
  {
    LogFactorialWeightIsPmf(p, n, j);
    WeightIsBinomialPmf(p, n, j);
  }

  /** n!/(j!(n−j)!) is the binomial coefficient, so the weight is the binomial
      probability mass at j. */
  lemma {:induction false} LogFactorialWeightIsPmf(p: real, n: nat, j: nat)
    requires j <= n
    ensures LogFactorialWeight(p, n, j) == BinomialPmf(p, n, j)
  {
    ChooseIsFactorialRatio(n, j);
  }

  /** exp(tmp): the weight of every terminal node j = 0..n. */
  function LogFactorialWeights(p: real, n: nat): (W: seq<real>)
    ensures |W| == n + 1
  {
    seq(n + 1, j requires 0 <= j <= n => LogFactorialWeight(p, n, j))
  }

  /** Every log-factorial weight is the Pascal weight the rollback accumulates. */
  lemma {:induction false} LogFactorialWeightsArePascal(p: real, n: nat)
    ensures forall j :: 0 <= j <= n ==> LogFactorialWeights(p, n)[j] == Weight(p, n, j)
  {
    forall j | 0 <= j <= n ensures LogFactorialWeights(p, n)[j] == Weight(p, n, j) {
      LogFactorialWeightIsPascal(p, n, j);
    }
  }

  /** sum(W * O) over the first m entries. */
  function WeightedPayouts(W: seq<real>, O: seq<real>, m: nat): real
    requires |W| == |O| && m <= |O|
  {
    if m == 0 then 0.0 else WeightedPayouts(W, O, m - 1) + W[m - 1] * O[m - 1]
  }

  /** Weighted by the Pascal weights, the one-pass sum equals the binomial sum
      the rollback produces, term by term. */
  lemma {:induction false} WeightedPayoutsIsBinomialSum(p: real, n: nat, W: seq<real>, O: seq<real>, m: nat)
    requires |W| == n + 1 && |O| == n + 1 && m <= n + 1
    requires forall j :: 0 <= j <= n ==> W[j] == Weight(p, n, j)
    ensures WeightedPayouts(W, O, m) == PartialSum(p, n, O, 0, m)
    decreases m
  {
    if m > 0 {
      WeightedPayoutsIsBinomialSum(p, n, W, O, m - 1);
      WeightedPayoutsStep(p, n, W, O, m);
    }
  }

  /** One more term on both sides keeps the two sums equal. */
  lemma {:induction false} WeightedPayoutsStep(p: real, n: nat, W: seq<real>, O: seq<real>, m: nat)
    requires |W| == n + 1 && |O| == n + 1 && 0 < m <= n + 1
    requires WeightedPayouts(W, O, m - 1) == PartialSum(p, n, O, 0, m - 1)
    requires W[m - 1] == Weight(p, n, m - 1)
    ensures WeightedPayouts(W, O, m) == PartialSum(p, n, O, 0, m)
  {
    PartialSumStep(p, n, O, m);
  }

  lemma {:induction false} PartialSumStep(p: real, n: nat, O: seq<real>, m: nat)
    requires |O| == n + 1 && 0 < m <= n + 1
    ensures PartialSum(p, n, O, 0, m) == PartialSum(p, n, O, 0, m - 1) + Weight(p, n, m - 1) * O[m - 1]
  {
  }

  /** The log-factorial sum is the binomial sum. */
  lemma {:induction false} LogFactorialSumIsBinomialSum(p: real, n: nat, O: seq<real>)
    requires |O| == n + 1
    ensures WeightedPayouts(LogFactorialWeights(p, n), O, n + 1) == BinomialSum(p, n, O, 0)
  {
    LogFactorialWeightsArePascal(p, n);
    WeightedPayoutsIsBinomialSum(p, n, LogFactorialWeights(p, n), O, n + 1);
  }

  /** What _calc_LT reports: the price (None where the log-factorial branch takes
      the logarithm of p ≤ 0 or 1 − p ≤ 0 and numpy yields NaN) and, when history
      is kept, the asset and option trees. */
  datatype LTResult = LTResult(px: Option<real>, hist: Option<Trees>)

  /** _calc_LT: with history the root of the rolled-back tree, otherwise the closed form. */
  function ChooserLT(s0: real, c: Contract, lat: LatticeSpec, keepHist: bool): (r: LTResult)
    ensures r.hist.Some? <==> keepHist
    ensures keepHist ==> r.px.Some? && r.hist.value.Shaped(lat.n)
    ensures keepHist ==> r.px.value == r.hist.value.values[0][0]
    ensures !keepHist ==> (r.px.Some? <==> 0.0 < lat.p < 1.0)
  {
    var S := TerminalPrices(s0, lat);
    var O := Payouts(c, S);
    if keepHist then
      var t := RollBack(lat, Hold, lat.n, S, O);
      LTResult(Some(t.Root()), Some(t))
    else
      LTResult(ClosedForm(lat, O), None)
  }

  /** The branch without history: df_T·sum(exp(tmp)·O), or NaN (None) when the
      logarithm of p or of 1 − p is taken at a non-positive argument. */
  function ClosedForm(lat: LatticeSpec, O: seq<real>): (px: Option<real>)
    requires |O| == lat.n + 1
    ensures px.Some? <==> 0.0 < lat.p < 1.0
  {
    if 0.0 < lat.p < 1.0 then Some(LogFactorialPrice(lat, O)) else None
  }

  /** df_T times the log-factorial weighted sum of the terminal payouts: df_T
      times the binomial expectation of the payouts. */
  function LogFactorialPrice(lat: LatticeSpec, O: seq<real>): (px: real)
    requires |O| == lat.n + 1
    ensures px == lat.dfT * BinomialSum(lat.p, lat.n, O, 0)
  {
    LogFactorialSumIsBinomialSum(lat.p, lat.n, O);
    lat.dfT * WeightedPayouts(LogFactorialWeights(lat.p, lat.n), O, lat.n + 1)
  }

  /** The history branch is the unadjusted European lattice: every node of the
      option tree is the discounted expectation of its two successors, and the
      terminal layer holds the payouts of the terminal prices. */
  lemma {:induction false} HistoryIsPureRollBack(s0: real, c: Contract, lat: LatticeSpec, k: nat, j: nat)
    requires j <= k < lat.n
    ensures var t := ChooserLT(s0, c, lat, true).hist.value;
      && t.assets[lat.n] == TerminalPrices(s0, lat)
      && t.values[lat.n] == Payouts(c, t.assets[lat.n])
      && t.assets[k] == ShiftDown(lat.d, t.assets[k + 1])
      && t.values[k][j] == StepBack(lat, t.values[k + 1][j], t.values[k + 1][j + 1])
  {
    var S := TerminalPrices(s0, lat);
    var t := RollBack(lat, Hold, lat.n, S, Payouts(c, S));
    LayerStep(lat, Hold, lat.n, S, Payouts(c, S), k + 1);
    assert t.values[k][j] == Continuation(lat, t.values[k + 1])[j];
  }

  /** The two branches agree whenever df_T = df_dt^n and 0 < p < 1: the rollback
      root equals df_T times the log-factorial weighted sum of the payouts. */
  lemma {:induction false} BranchesAgree(s0: real, c: Contract, lat: LatticeSpec)
    requires 0.0 < lat.p < 1.0 && lat.dfT == Pow(lat.dfDt, lat.n)
    ensures var h, f := ChooserLT(s0, c, lat, true).px, ChooserLT(s0, c, lat, false).px;
      h.Some? && f.Some? && h.value == f.value
  {
    var S := TerminalPrices(s0, lat);
    EuropeanRootIsClosedForm(lat, S, Payouts(c, S));
    HistoryBranch(s0, c, lat);
    ClosedFormBranch(s0, c, lat);
  }

  /** The European rollback root is the log-factorial price when df_T = df_dt^n. */
  lemma {:induction false} EuropeanRootIsClosedForm(lat: LatticeSpec, S: seq<real>, O: seq<real>)
    requires |S| == lat.n + 1 && |O| == lat.n + 1
    requires lat.dfT == Pow(lat.dfDt, lat.n)
    ensures RollBack(lat, Hold, lat.n, S, O).Root() == LogFactorialPrice(lat, O)
  {
    EuropeanRoot(lat, S, O);
    RootIsClosedForm(lat, O, RollBack(lat, Hold, lat.n, S, O).Root());
  }

  /** A value that is df_dt^n times the binomial sum of the terminal values is
      df_T times their log-factorial weighted sum. */
  lemma {:induction false} RootIsClosedForm(lat: LatticeSpec, O: seq<real>, root: real)
    requires |O| == lat.n + 1
    requires lat.dfT == Pow(lat.dfDt, lat.n)
    requires DiscountedBinomial(lat, root, lat.n, O, 0)
    ensures root == LogFactorialPrice(lat, O)
  {
    var b := BinomialSum(lat.p, lat.n, O, 0);
    var w := WeightedPayouts(LogFactorialWeights(lat.p, lat.n), O, lat.n + 1);
    LogFactorialSumIsBinomialSum(lat.p, lat.n, O);
    SameProduct(Pow(lat.dfDt, lat.n), b, lat.dfT, w);
  }

  /** Equal factors give equal products. */
  lemma {:induction false} SameProduct(a: real, b: real, c: real, d: real)
    requires a == c && b == d
    ensures a * b == c * d
  {
  }

  /** With 0 < p < 1 the closed form is taken: df_T times the log-factorial sum. */
  lemma {:induction false} ClosedFormBranch(s0: real, c: Contract, lat: LatticeSpec)
    requires 0.0 < lat.p < 1.0
    ensures var O := Payouts(c, TerminalPrices(s0, lat));
      var px := ChooserLT(s0, c, lat, false).px;
      px == Some(LogFactorialPrice(lat, O))
  {
  }

  /** With history kept, the price is the root of the rolled-back tree. */
  lemma {:induction false} HistoryBranch(s0: real, c: Contract, lat: LatticeSpec)
    ensures var S := TerminalPrices(s0, lat);
      ChooserLT(s0, c, lat, true).px.value == RollBack(lat, Hold, lat.n, S, Payouts(c, S)).Root()
  {
  }

  /** Either branch prices non-negatively when 0 ≤ p ≤ 1 and the discount
      factors are non-negative. */
  lemma {:induction false} ChooserPriceNonneg(s0: real, c: Contract, lat: LatticeSpec, keepHist: bool)
    requires lat.WellFormed() && lat.dfT >= 0.0
    ensures var r := ChooserLT(s0, c, lat, keepHist);
      r.px.Some? ==> r.px.value >= 0.0
  {
    var S := TerminalPrices(s0, lat);
    var O := Payouts(c, S);
    if keepHist {
      ValuationNonneg(s0, c, lat, Hold);
      var t := Valuation(s0, c, lat, Hold);
      assert AllNonneg(t.values[0]);
      assert ChooserLT(s0, c, lat, keepHist).px == Some(t.values[0][0]);
    } else if 0.0 < lat.p < 1.0 {
      LogFactorialSumIsBinomialSum(lat.p, lat.n, O);
      PartialSumNonneg(lat.p, lat.n, O, 0, lat.n + 1);
      MulNonneg(lat.dfT, WeightedPayouts(LogFactorialWeights(lat.p, lat.n), O, lat.n + 1));
    }
  }

  /** The log-factorial weights of one lattice sum to one. */
  lemma {:induction false} LogFactorialWeightsSumToOne(p: real, n: nat, ones: seq<real>)
    requires |ones| == n + 1 && forall m :: 0 <= m < |ones| ==> ones[m] == 1.0
    ensures WeightedPayouts(LogFactorialWeights(p, n), ones, n + 1) == 1.0
  {
    LogFactorialSumIsBinomialSum(p, n, ones);
    WeightsSumToOne(p, n, ones);
  }

  /** With u·d = 1 the reference tree recombines: layer k is S0·d^(k−j)·u^j, and
      two layers down the node with one more up-move repeats a price. */
  lemma {:induction false} ReferenceTreeRecombines(s0: real, c: Contract, lat: LatticeSpec, k: nat, j: nat)
    requires lat.u * lat.d == 1.0 && j <= k && k + 2 <= lat.n
    ensures var t := ChooserLT(s0, c, lat, true).hist.value;
      && t.assets[k] == Grid(s0, lat.u, lat.d, k)
      && t.assets[k][j] == t.assets[k + 2][j + 1]
  {
    ValuationAssetTree(s0, c, lat, Hold);
    GridRecombines(s0, lat.u, lat.d, k, j);
  }

  // ---------------------------------------------------------------------------
  // Input checks of chooser()

  /** The assertion chooser() fails first, in the order it checks them. */
  datatype InputError =
    | NotCallOrPut
    | NonPositiveVol
    | NonPositiveStrike
    | NonPositiveMaturity
    | NegativeSpot
    | NegativeRate
    | NegativeYield

  /** ASCII lower-casing of one character. */
  function LowerChar(ch: char): (r: char)
    ensures 'A' <= ch <= 'Z' ==> 'a' <= r <= 'z' && r as int - ch as int == 32
    ensures !('A' <= ch <= 'Z') ==> r == ch
  {
    if 'A' <= ch <= 'Z' then (ch as int + 32) as char else ch
  }

  /** str.lower() on ASCII letters. */
  function Lower(s: string): (r: string)
    ensures |r| == |s|
    ensures forall i :: 0 <= i < |s| ==> r[i] == LowerChar(s[i])
  {
    seq(|s|, i requires 0 <= i < |s| => LowerChar(s[i]))
  }

  /** Lower-casing twice is lower-casing once. */
  lemma {:induction false} LowerIdempotent(s: string)
    ensures Lower(Lower(s)) == Lower(s)
  {
    forall i | 0 <= i < |s| ensures Lower(Lower(s))[i] == Lower(s)[i] {
      assert LowerChar(LowerChar(s[i])) == LowerChar(s[i]);
    }
  }

  /** The right, lower-cased, must be "call" or "put"; then vol > 0, K > 0, T > 0,
      S ≥ 0, rfr ≥ 0 and q ≥ 0, checked in that order. */
  function ValidateChooser(right: string, s: real, k: real, t: real, vol: real, rfr: real, q: real)
    : (r: Result<Right, InputError>)
    ensures r.Success? <==>
      && (Lower(right) == "call" || Lower(right) == "put")
      && vol > 0.0 && k > 0.0 && t > 0.0 && s >= 0.0 && rfr >= 0.0 && q >= 0.0
    ensures r.Success? ==> (r.value == Call <==> Lower(right) == "call")
    ensures r == Failure(NotCallOrPut) <==> Lower(right) != "call" && Lower(right) != "put"
    ensures r == Failure(NonPositiveVol) ==> vol <= 0.0
    ensures r == Failure(NonPositiveStrike) ==> vol > 0.0 && k <= 0.0
    ensures r == Failure(NonPositiveMaturity) ==> vol > 0.0 && k > 0.0 && t <= 0.0
    ensures r == Failure(NegativeSpot) ==> vol > 0.0 && k > 0.0 && t > 0.0 && s < 0.0
    ensures r == Failure(NegativeRate) ==> vol > 0.0 && k > 0.0 && t > 0.0 && s >= 0.0 && rfr < 0.0
    ensures r == Failure(NegativeYield) ==>
      vol > 0.0 && k > 0.0 && t > 0.0 && s >= 0.0 && rfr >= 0.0 && q < 0.0
  {
    var lr := Lower(right);
    if lr != "call" && lr != "put" then Failure(NotCallOrPut)
    else if !(vol > 0.0) then Failure(NonPositiveVol)
    else if !(k > 0.0) then Failure(NonPositiveStrike)
    else if !(t > 0.0) then Failure(NonPositiveMaturity)
    else if !(s >= 0.0) then Failure(NegativeSpot)
    else if !(rfr >= 0.0) then Failure(NegativeRate)
    else if !(q >= 0.0) then Failure(NegativeYield)
    else Success(if lr == "call" then Call else Put)
  }

  /** The check ignores the case of the right: "CALL", "Call" and "call" are one input. */
  lemma {:induction false} ValidateIgnoresCase(right: string, s: real, k: real, t: real, vol: real, rfr: real, q: real)
    ensures ValidateChooser(right, s, k, t, vol, rfr, q) == ValidateChooser(Lower(right), s, k, t, vol, rfr, q)
  {
    LowerIdempotent(right);
  }
}

=== FILE: lattice.dfy ===
/** The binomial-lattice engine shared by the Bermudan, Shout and Chooser
    pricers: terminal layer, one-step discounted continuation, per-node
    adjustment rules, and the backward rollback that keeps every layer
    (root first) as the asset tree and the option-value tree. */
module Lattice {
  import opened Arith

  datatype Right = Call | Put {
    /** The source's signCP: +1 for a call, -1 for a put. */
    function Sign(): real
    {
      if Call? then 1.0 else -1.0
    }
  }

  datatype Contract = Contract(right: Right, strike: real)

  /** Lattice parameters as returned by LT_specs(n): step count, up and down
      factors, risk-neutral probability, per-step and total discount factors,
      step length. */
  datatype LatticeSpec = LatticeSpec(n: nat, u: real, d: real, p: real, dfDt: real, dfT: real, dt: real)
  {
    /** p is a probability and df_dt is not negative. */
    predicate WellFormed()
    {
      0.0 <= p <= 1.0 && dfDt >= 0.0
    }
  }

  /** Intrinsic value max(sign·(s − K), 0). */
  function Payout(c: Contract, s: real): (v: real)
    ensures v >= 0.0
    ensures v > 0.0 <==> (c.right.Call? && s > c.strike) || (c.right.Put? && s < c.strike)
    ensures v > 0.0 ==> v == c.right.Sign() * (s - c.strike)
  {
    Max(c.right.Sign() * (s - c.strike), 0.0)
  }

  /** The payout of every price in a layer. */
  function Payouts(c: Contract, S: seq<real>): (O: seq<real>)
    ensures |O| == |S|
    ensures AllNonneg(O)
  {
    seq(|S|, j requires 0 <= j < |S| => Payout(c, S[j]))
  }

  /** Every entry is at least zero. */
  predicate AllNonneg(s: seq<real>)
  {
    forall j :: 0 <= j < |s| ==> s[j] >= 0.0
  }

  /** Pointwise a ≥ b on sequences of equal length. */
  predicate AtLeast(a: seq<real>, b: seq<real>)
  {
    |a| == |b| && forall j :: 0 <= j < |a| ==> a[j] >= b[j]
  }

  /** Layer k of a recombining lattice rooted at s0: entry j (j up-moves) is s0·d^(k−j)·u^j. */
  function Grid(s0: real, u: real, d: real, k: nat): (S: seq<real>)
    ensures |S| == k + 1
  {
    seq(k + 1, j requires 0 <= j <= k => s0 * Pow(d, k - j) * Pow(u, j))
  }

  /** Terminal asset prices S0·d^(n−j)·u^j, j = 0..n. */
  function TerminalPrices(s0: real, lat: LatticeSpec): (S: seq<real>)
    ensures |S| == lat.n + 1
  {
    Grid(s0, lat.u, lat.d, lat.n)
  }

  /** The probability-weighted average (1−p)·a + p·b of a down value a and an up value b. */
  function Mix(p: real, a: real, b: real): real
  {
    (1.0 - p) * a + p * b
  }

  /** The discounted expectation over one step, from the down and up successors. */
  function StepBack(lat: LatticeSpec, down: real, up: real): real
  {
    lat.dfDt * Mix(lat.p, down, up)
  }

  /** One backward step of the option values: df_dt·((1−p)·O[j] + p·O[j+1]). */
  function Continuation(lat: LatticeSpec, O: seq<real>): (C: seq<real>)
    requires |O| >= 1
    ensures |C| == |O| - 1
  {
    seq(|O| - 1, j requires 0 <= j < |O| - 1 => StepBack(lat, O[j], O[j + 1]))
  }

  /** With 0 ≤ p ≤ 1 and df_dt ≥ 0, each continuation value is the discounted
      probability-weighted average of its two successors, so it lies between
      df_dt times the smaller and df_dt times the larger of them. */
  lemma {:induction false} ContinuationBounds(lat: LatticeSpec, O: seq<real>)
    requires lat.WellFormed() && |O| >= 1
    ensures var C := Continuation(lat, O);
      forall j :: 0 <= j < |C| ==>
        lat.dfDt * Min(O[j], O[j + 1]) <= C[j] <= lat.dfDt * Max(O[j], O[j + 1])
  {
    var C := Continuation(lat, O);
    forall j | 0 <= j < |C|
      ensures lat.dfDt * Min(O[j], O[j + 1]) <= C[j] <= lat.dfDt * Max(O[j], O[j + 1])
    {
      ContinuationBoundAt(lat, O, j);
    }
  }

  /** The bound of ContinuationBounds at one node. */
  lemma {:induction false} ContinuationBoundAt(lat: LatticeSpec, O: seq<real>, j: nat)
    requires lat.WellFormed() && j < |O| - 1
    ensures lat.dfDt * Min(O[j], O[j + 1]) <= Continuation(lat, O)[j] <= lat.dfDt * Max(O[j], O[j + 1])
  {
    var a, b := O[j], O[j + 1];
    assert Continuation(lat, O)[j] == StepBack(lat, a, b);
    ConvexStep(lat, a, b);
  }

  /** One step back lies between df_dt times the smaller and the larger successor. */
  lemma {:induction false} ConvexStep(lat: LatticeSpec, a: real, b: real)
    requires lat.WellFormed()
    ensures lat.dfDt * Min(a, b) <= StepBack(lat, a, b) <= lat.dfDt * Max(a, b)
  {
    var p, df := lat.p, lat.dfDt;
    var x := Mix(p, a, b);
    Between(p, a, b);
    MulMono(df, Min(a, b), x);
    MulMono(df, x, Max(a, b));
  }

  /** A probability-weighted average of a and b lies between them. */
  lemma {:induction false} Between(p: real, a: real, b: real)
    requires 0.0 <= p <= 1.0
    ensures Min(a, b) <= Mix(p, a, b) <= Max(a, b)
  {
    BetweenOrdered(p, a, b);
    BetweenMinMax(Mix(p, a, b), a, b);
  }

  /** A value between a and b, whichever is larger, lies between their minimum and maximum. */
  lemma {:induction false} BetweenMinMax(x: real, a: real, b: real)
    requires a <= b ==> a <= x <= b
    requires b < a ==> b <= x <= a
    ensures Min(a, b) <= x <= Max(a, b)
  {
    MinMaxOrdered(a, b);
  }

  lemma {:induction false} BetweenOrdered(p: real, a: real, b: real)
    requires 0.0 <= p <= 1.0
    ensures a <= b ==> a <= Mix(p, a, b) <= b
    ensures b < a ==> b <= Mix(p, a, b) <= a
  {
    if a <= b {
      var e := b - a;
      Affine(p, a, b, e);
      Shrink(p, e);
    } else {
      var e := a - b;
      var q := 1.0 - p;
      MixSwap(p, q, a, b);
      Affine(q, b, a, e);
      Shrink(q, e);
    }
  }

  /** Weighting a by 1−p and b by p is weighting b by q = 1−p and a by 1−q. */
  lemma {:induction false} MixSwap(p: real, q: real, a: real, b: real)
    requires q == 1.0 - p
    ensures Mix(p, a, b) == Mix(q, b, a)
  {
  }

  lemma {:induction false} MinMaxOrdered(a: real, b: real)
    ensures a <= b ==> Min(a, b) == a && Max(a, b) == b
    ensures b < a ==> Min(a, b) == b && Max(a, b) == a
  {
  }

  /** (1−p)·a + p·b = a + p·(b − a). */
  lemma {:induction false} Affine(p: real, a: real, b: real, e: real)
    requires e == b - a
    ensures Mix(p, a, b) == a + p * e
  {
    assert (1.0 - p) * a == a - p * a;
    assert p * e == p * b - p * a;
  }

  /** A fraction p of a non-negative e lies between 0 and e. */
  lemma {:induction false} Shrink(p: real, e: real)
    requires 0.0 <= p <= 1.0 && e >= 0.0
    ensures 0.0 <= p * e <= e
  {
    MulMono(p, 0.0, e);
    MulMono(1.0 - p, 0.0, e);
    assert (1.0 - p) * e == e - p * e;
  }

  lemma {:induction false} MulMono(x: real, a: real, b: real)
    requires x >= 0.0 && a <= b
    ensures x * a <= x * b
  {
    assert x * b - x * a == x * (b - a);
  }

  /** One backward step of the asset prices: d·S[1..]. */
  function ShiftDown(d: real, S: seq<real>): (S': seq<real>)
    requires |S| >= 1
    ensures |S'| == |S| - 1
  {
    seq(|S| - 1, j requires 0 <= j < |S| - 1 => d * S[j + 1])
  }

  /** The per-node decision applied after each backward step.
      Hold: none (European, and the Chooser lattice).
      Exercise: max with the intrinsic payout, at layers the schedule allows (Bermudan).
      ShoutFloor: max with the non-negative part of the shout-locked value, at every layer. */
  datatype Rule =
    | Hold
    | Exercise(contract: Contract, exercisable: nat -> bool)
    | ShoutFloor(lock: (real, real) -> real)

  /** Time remaining to maturity at layer k. */
  function TimeLeft(lat: LatticeSpec, k: nat): (t: real)
    requires k < lat.n
    ensures lat.dt > 0.0 ==> t > 0.0
    ensures lat.dt >= 0.0 ==> lat.dt <= t <= lat.n as real * lat.dt
  {
    var t := (lat.n - k) as real * lat.dt;
    assert lat.dt >= 0.0 ==> lat.dt <= t <= lat.n as real * lat.dt by {
      if lat.dt >= 0.0 {
        assert (lat.n - k) as real >= 1.0;
        assert (lat.n - k) as real <= lat.n as real;
      }
    }
    t
  }

  /** Held value at a node of layer k with asset price s and continuation value c. */
  function NodeValue(lat: LatticeSpec, rule: Rule, k: nat, s: real, c: real): (v: real)
    requires k < lat.n
    ensures v >= c
    ensures rule.Hold? ==> v == c
    ensures rule.Exercise? && !rule.exercisable(k) ==> v == c
    ensures rule.Exercise? && rule.exercisable(k) ==>
      v >= Payout(rule.contract, s) && (v == c || v == Payout(rule.contract, s))
    ensures rule.ShoutFloor? ==>
      var locked := rule.lock(s, TimeLeft(lat, k));
      v >= locked && v >= 0.0 && (v == c || v == locked || v == 0.0)
  {
    match rule
    case Hold => c
    case Exercise(contract, exercisable) =>
      if exercisable(k) then Max(c, Payout(contract, s)) else c
    case ShoutFloor(lock) => Max(c, Max(lock(s, TimeLeft(lat, k)), 0.0))
  }

  /** The adjustment applied to a whole layer. */
  function Adjust(lat: LatticeSpec, rule: Rule, k: nat, S: seq<real>, C: seq<real>): (O: seq<real>)
    requires k < lat.n && |S| == |C|
    ensures AtLeast(O, C)
  {
    seq(|C|, j requires 0 <= j < |C| => NodeValue(lat, rule, k, S[j], C[j]))
  }

  /** Asset and option-value trees, root first. */
  datatype Trees = Trees(assets: seq<seq<real>>, values: seq<seq<real>>)
  {
    /** i+1 layers in each tree, layer k holding k+1 entries. */
    predicate Shaped(i: nat)
    {
      && |assets| == i + 1
      && |values| == i + 1
      && (forall k :: 0 <= k <= i ==> |assets[k]| == k + 1)
      && (forall k :: 0 <= k <= i ==> |values[k]| == k + 1)
    }

    function Root(): real
      requires |values| > 0 && |values[0]| > 0
    {
      values[0][0]
    }
  }

  /** Rolls layer i (asset prices S, option values O) back to the root. */
  function RollBack(lat: LatticeSpec, rule: Rule, i: nat, S: seq<real>, O: seq<real>): (t: Trees)
    requires i <= lat.n && |S| == i + 1 && |O| == i + 1
    ensures t.Shaped(i)
    ensures t.assets[i] == S && t.values[i] == O
    decreases i
  {
    if i == 0 then Trees([S], [O])
    else
      var S' := ShiftDown(lat.d, S);
      var O' := Adjust(lat, rule, i - 1, S', Continuation(lat, O));
      var t := RollBack(lat, rule, i - 1, S', O');
      Trees(t.assets + [S], t.values + [O])
  }

  /** The full lattice valuation: terminal layer, then rollback over all n steps. */
  function Valuation(s0: real, c: Contract, lat: LatticeSpec, rule: Rule): (t: Trees)
    ensures t.Shaped(lat.n)
    ensures t.assets[lat.n] == TerminalPrices(s0, lat)
    ensures t.values[lat.n] == Payouts(c, t.assets[lat.n]) && AllNonneg(t.values[lat.n])
  {
    var S := TerminalPrices(s0, lat);
    RollBack(lat, rule, lat.n, S, Payouts(c, S))
  }

  // ---------------------------------------------------------------------------
  // Properties of the engine

  /** Each layer is the previous (later) one stepped back once and then adjusted. */
  lemma {:induction false} LayerStep(lat: LatticeSpec, rule: Rule, i: nat, S: seq<real>, O: seq<real>, k: nat)
    requires i <= lat.n && |S| == i + 1 && |O| == i + 1
    requires 0 < k <= i
    ensures var t := RollBack(lat, rule, i, S, O);
      && t.assets[k - 1] == ShiftDown(lat.d, t.assets[k])
      && t.values[k - 1] == Adjust(lat, rule, k - 1, t.assets[k - 1], Continuation(lat, t.values[k]))
    decreases i
  {
    var S' := ShiftDown(lat.d, S);
    var O' := Adjust(lat, rule, i - 1, S', Continuation(lat, O));
    RollBackPrefix(lat, rule, i, S, O, k - 1);
    if k < i {
      LayerStep(lat, rule, i - 1, S', O', k);
      RollBackPrefix(lat, rule, i, S, O, k);
    }
  }

  /** The layers below i are those of the rollback from layer i−1. */
  lemma {:induction false} RollBackPrefix(lat: LatticeSpec, rule: Rule, i: nat, S: seq<real>, O: seq<real>, m: nat)
    requires 0 < i <= lat.n && |S| == i + 1 && |O| == i + 1 && m < i
    ensures var S' := ShiftDown(lat.d, S);
      var t, t' := RollBack(lat, rule, i, S, O), RollBack(lat, rule, i - 1, S', Adjust(lat, rule, i - 1, S', Continuation(lat, O)));
      t.assets[m] == t'.assets[m] && t.values[m] == t'.values[m]
  {
  }

  /** With 0 ≤ p ≤ 1 and df_dt ≥ 0, non-negative terminal values stay non-negative in every layer. */
  lemma {:induction false} RollBackNonneg(lat: LatticeSpec, rule: Rule, i: nat, S: seq<real>, O: seq<real>)
    requires lat.WellFormed()
    requires i <= lat.n && |S| == i + 1 && |O| == i + 1
    requires AllNonneg(O)
    ensures forall k :: 0 <= k <= i ==> AllNonneg(RollBack(lat, rule, i, S, O).values[k])
    decreases i
  {
    if i > 0 {
      var S' := ShiftDown(lat.d, S);
      var C := Continuation(lat, O);
      var O' := Adjust(lat, rule, i - 1, S', C);
      ContinuationNonneg(lat, O);
      assert AllNonneg(O') by {
        assert AtLeast(O', C);
      }
      RollBackNonneg(lat, rule, i - 1, S', O');
    }
  }

  lemma {:induction false} ContinuationNonneg(lat: LatticeSpec, O: seq<real>)
    requires lat.WellFormed() && |O| >= 1 && AllNonneg(O)
    ensures AllNonneg(Continuation(lat, O))
  {
    var C := Continuation(lat, O);
    forall j | 0 <= j < |C| ensures C[j] >= 0.0 {
      StepMono(lat.p, lat.dfDt, O[j], O[j + 1], 0.0, 0.0);
    }
  }

  lemma {:induction false} ValuationNonneg(s0: real, c: Contract, lat: LatticeSpec, rule: Rule)
    requires lat.WellFormed()
    ensures var t := Valuation(s0, c, lat, rule);
      forall k :: 0 <= k <= lat.n ==> AllNonneg(t.values[k])
  {
    var S := TerminalPrices(s0, lat);
    RollBackNonneg(lat, rule, lat.n, S, Payouts(c, S));
  }

  /** Rule a dominates rule b: at every node, a larger continuation gives a larger held value. */
  ghost predicate Dominates(lat: LatticeSpec, a: Rule, b: Rule)
  {
    forall k: nat, s: real, c1: real, c2: real
      {:trigger NodeValue(lat, a, k, s, c1), NodeValue(lat, b, k, s, c2)}
      :: k < lat.n && c1 >= c2 ==> NodeValue(lat, a, k, s, c1) >= NodeValue(lat, b, k, s, c2)
  }

  lemma {:induction false} ContinuationMonotone(lat: LatticeSpec, O1: seq<real>, O2: seq<real>)
    requires lat.WellFormed() && |O1| >= 1 && AtLeast(O1, O2)
    ensures AtLeast(Continuation(lat, O1), Continuation(lat, O2))
  {
    var C1, C2 := Continuation(lat, O1), Continuation(lat, O2);
    forall j | 0 <= j < |C1| ensures C1[j] >= C2[j] {
      StepMono(lat.p, lat.dfDt, O1[j], O1[j + 1], O2[j], O2[j + 1]);
    }
  }

  lemma {:induction false} StepMono(p: real, df: real, a1: real, b1: real, a2: real, b2: real)
    requires 0.0 <= p <= 1.0 && df >= 0.0 && a1 >= a2 && b1 >= b2
    ensures df * Mix(p, a1, b1) >= df * Mix(p, a2, b2)
  {
    WeightedMono(1.0 - p, p, df, a1, b1, a2, b2);
  }

  lemma {:induction false} WeightedMono(q: real, p: real, df: real, a1: real, b1: real, a2: real, b2: real)
    requires q >= 0.0 && p >= 0.0 && df >= 0.0 && a1 >= a2 && b1 >= b2
    ensures df * (q * a1 + p * b1) >= df * (q * a2 + p * b2)
  {
    MulMono(q, a2, a1);
    MulMono(p, b2, b1);
    MulMono(df, q * a2 + p * b2, q * a1 + p * b1);
  }

  /** If rule a dominates rule b, rolling back larger terminal values under a gives
      larger values in every layer; the asset trees do not depend on the rule. */
  lemma {:induction false} RollBackDominates(lat: LatticeSpec, a: Rule, b: Rule, i: nat,
                                             S: seq<real>, O1: seq<real>, O2: seq<real>)
    requires lat.WellFormed() && Dominates(lat, a, b)
    requires i <= lat.n && |S| == i + 1 && |O1| == i + 1 && AtLeast(O1, O2)
    ensures var t1, t2 := RollBack(lat, a, i, S, O1), RollBack(lat, b, i, S, O2);
      && t1.assets == t2.assets
      && forall k :: 0 <= k <= i ==> AtLeast(t1.values[k], t2.values[k])
    decreases i
  {
    if i > 0 {
      var S' := ShiftDown(lat.d, S);
      var C1, C2 := Continuation(lat, O1), Continuation(lat, O2);
      ContinuationMonotone(lat, O1, O2);
      AdjustDominates(lat, a, b, i - 1, S', C1, C2);
      RollBackDominates(lat, a, b, i - 1, S', Adjust(lat, a, i - 1, S', C1), Adjust(lat, b, i - 1, S', C2));
    }
  }

  /** Adjusting larger continuation values under a dominating rule gives larger values. */
  lemma {:induction false} AdjustDominates(lat: LatticeSpec, a: Rule, b: Rule, k: nat,
                                           S: seq<real>, C1: seq<real>, C2: seq<real>)
    requires Dominates(lat, a, b)
    requires k < lat.n && |S| == |C1| && AtLeast(C1, C2)
    ensures AtLeast(Adjust(lat, a, k, S, C1), Adjust(lat, b, k, S, C2))
  {
    var A1, A2 := Adjust(lat, a, k, S, C1), Adjust(lat, b, k, S, C2);
    forall j | 0 <= j < |A1| ensures A1[j] >= A2[j] {
      assert A1[j] == NodeValue(lat, a, k, S[j], C1[j]);
      assert A2[j] == NodeValue(lat, b, k, S[j], C2[j]);
    }
  }

  /** Every rule dominates Hold: any early decision can only add value. */
  lemma {:induction false} DominatesHold(lat: LatticeSpec, a: Rule)
    ensures Dominates(lat, a, Hold)
  {
    forall k: nat, s: real, c1: real, c2: real | k < lat.n && c1 >= c2
      ensures NodeValue(lat, a, k, s, c1) >= NodeValue(lat, Hold, k, s, c2)
    {
    }
  }

  /** Allowing exercise at more layers can only add value. */
  lemma {:induction false} DominatesMoreExercise(lat: LatticeSpec, c: Contract, fewer: nat -> bool, more: nat -> bool)
    requires forall k: nat :: fewer(k) ==> more(k)
    ensures Dominates(lat, Exercise(c, more), Exercise(c, fewer))
  {
    forall k: nat, s: real, c1: real, c2: real | k < lat.n && c1 >= c2
      ensures NodeValue(lat, Exercise(c, more), k, s, c1) >= NodeValue(lat, Exercise(c, fewer), k, s, c2)
    {
    }
  }

  /** Any adjusted valuation is at least the European (Hold) valuation, node by node. */
  lemma {:induction false} AdjustedAtLeastEuropean(s0: real, c: Contract, lat: LatticeSpec, rule: Rule)
    requires lat.WellFormed()
    ensures var t, e := Valuation(s0, c, lat, rule), Valuation(s0, c, lat, Hold);
      && t.assets == e.assets
      && (forall k :: 0 <= k <= lat.n ==> AtLeast(t.values[k], e.values[k]))
      && t.Root() >= e.Root()
  {
    var S := TerminalPrices(s0, lat);
    DominatesHold(lat, rule);
    RollBackDominates(lat, rule, Hold, lat.n, S, Payouts(c, S), Payouts(c, S));
  }

  /** An Exercise rule whose schedule allows no layer before maturity is the Hold rule. */
  lemma {:induction false} NeverExercisableIsHold(lat: LatticeSpec, c: Contract, ex: nat -> bool,
                                                  i: nat, S: seq<real>, O: seq<real>)
    requires forall k: nat :: k < lat.n ==> !ex(k)
    requires i <= lat.n && |S| == i + 1 && |O| == i + 1
    ensures RollBack(lat, Exercise(c, ex), i, S, O) == RollBack(lat, Hold, i, S, O)
    decreases i
  {
    if i > 0 {
      var S' := ShiftDown(lat.d, S);
      var C := Continuation(lat, O);
      assert Adjust(lat, Exercise(c, ex), i - 1, S', C) == C == Adjust(lat, Hold, i - 1, S', C);
      NeverExercisableIsHold(lat, c, ex, i - 1, S', C);
    }
  }

  /** Two Exercise rules that allow the same layers before maturity give the same tree. */
  lemma {:induction false} SameExerciseLayers(lat: LatticeSpec, c: Contract, ex1: nat -> bool, ex2: nat -> bool,
                                              i: nat, S: seq<real>, O: seq<real>)
    requires forall k: nat :: k < lat.n ==> ex1(k) == ex2(k)
    requires i <= lat.n && |S| == i + 1 && |O| == i + 1
    ensures RollBack(lat, Exercise(c, ex1), i, S, O) == RollBack(lat, Exercise(c, ex2), i, S, O)
    decreases i
  {
    if i > 0 {
      var S' := ShiftDown(lat.d, S);
      var C := Continuation(lat, O);
      var A := Adjust(lat, Exercise(c, ex1), i - 1, S', C);
      assert A == Adjust(lat, Exercise(c, ex2), i - 1, S', C);
      SameExerciseLayers(lat, c, ex1, ex2, i - 1, S', A);
    }
  }

  // ---------------------------------------------------------------------------
  // Shape of the asset tree

  /** Terminal prices rise with the number of up-moves when 0 < d ≤ u and S0 ≥ 0. */
  lemma {:induction false} GridAscending(s0: real, u: real, d: real, k: nat, j: nat)
    requires s0 >= 0.0 && 0.0 < d <= u
    requires j < k
    ensures Grid(s0, u, d, k)[j] <= Grid(s0, u, d, k)[j + 1]
  {
    var a := Pow(d, k - j - 1);
    var b := Pow(u, j);
    PowNonneg(d, k - j - 1);
    PowNonneg(u, j);
    assert Pow(d, k - j) == d * a;
    assert Pow(u, j + 1) == u * b;
    assert s0 * a * b >= 0.0;
    assert s0 * (d * a) * b == (s0 * a * b) * d;
    assert s0 * a * (u * b) == (s0 * a * b) * u;
  }

  /** With u·d = 1, stepping layer k+1 of the grid back once gives layer k. */
  lemma {:induction false} ShiftDownGrid(s0: real, u: real, d: real, k: nat)
    requires u * d == 1.0
    ensures ShiftDown(d, Grid(s0, u, d, k + 1)) == Grid(s0, u, d, k)
  {
    var L, R := ShiftDown(d, Grid(s0, u, d, k + 1)), Grid(s0, u, d, k);
    forall j | 0 <= j <= k ensures L[j] == R[j] {
      var a, b := Pow(d, k - j), Pow(u, j);
      assert Pow(d, k + 1 - (j + 1)) == a;
      assert Pow(u, j + 1) == u * b;
      calc {
        L[j];
        d * (s0 * a * (u * b));
        (u * d) * (s0 * a * b);
        R[j];
      }
    }
  }

  /** With u·d = 1, the asset tree recombines: layer k is the grid of depth k rooted at S0. */
  lemma {:induction false} RollBackAssetGrid(lat: LatticeSpec, rule: Rule, s0: real, i: nat, O: seq<real>)
    requires lat.u * lat.d == 1.0
    requires i <= lat.n && |O| == i + 1
    ensures var t := RollBack(lat, rule, i, Grid(s0, lat.u, lat.d, i), O);
      forall k :: 0 <= k <= i ==> t.assets[k] == Grid(s0, lat.u, lat.d, k)
    decreases i
  {
    if i > 0 {
      var S := Grid(s0, lat.u, lat.d, i);
      ShiftDownGrid(s0, lat.u, lat.d, i - 1);
      var O' := Adjust(lat, rule, i - 1, Grid(s0, lat.u, lat.d, i - 1), Continuation(lat, O));
      RollBackAssetGrid(lat, rule, s0, i - 1, O');
    }
  }

  /** The asset tree of a valuation with u·d = 1: layer k is the grid of depth k,
      entry j being S0·d^(k−j)·u^j, and the root is S0. */
  lemma {:induction false} ValuationAssetTree(s0: real, c: Contract, lat: LatticeSpec, rule: Rule)
    requires lat.u * lat.d == 1.0
    ensures var t := Valuation(s0, c, lat, rule);
      && (forall k :: 0 <= k <= lat.n ==> t.assets[k] == Grid(s0, lat.u, lat.d, k))
      && t.assets[0][0] == s0
  {
    var S := TerminalPrices(s0, lat);
    RollBackAssetGrid(lat, rule, s0, lat.n, Payouts(c, S));
    assert Grid(s0, lat.u, lat.d, 0)[0] == s0 * Pow(lat.d, 0) * Pow(lat.u, 0);
  }

  /** With u·d = 1 the lattice recombines: two layers later, the node with one more
      up-move carries the same price. */
  lemma {:induction false} GridRecombines(s0: real, u: real, d: real, k: nat, j: nat)
    requires u * d == 1.0 && j <= k
    ensures Grid(s0, u, d, k)[j] == Grid(s0, u, d, k + 2)[j + 1]
  {
    var a, b := Pow(d, k - j), Pow(u, j);
    assert Pow(d, k + 2 - (j + 1)) == d * a;
    assert Pow(u, j + 1) == u * b;
    assert s0 * (d * a) * (u * b) == (u * d) * (s0 * a * b);
  }
}

=== FILE: shout.dfy ===
/** The lattice pricer of the shout option (Shout._calc_LT). At any step before
    maturity the holder may shout and lock in a guaranteed value; the lattice
    keeps, at every node, the larger of continuing and the non-negative part of
    that locked value. The locked value itself (a Black-Scholes style expression
    of the asset price and the time left) is a parameter. */
module Shout {
  import opened Arith
  import opened Lattice

  /** The shout lattice: terminal prices and payouts, then n rollback steps with
      the shout floor applied at every layer before maturity. */
  function ShoutLT(s0: real, c: Contract, lat: LatticeSpec, lock: (real, real) -> real): (t: Trees)
    ensures t.Shaped(lat.n)
    ensures t.assets[lat.n] == TerminalPrices(s0, lat)
    ensures t.values[lat.n] == Payouts(c, TerminalPrices(s0, lat))
  {
    Valuation(s0, c, lat, ShoutFloor(lock))
  }

  /** The reported price: the single entry left in O after the loop, which is the
      root of the option tree. It is non-negative and at least the European price
      on the same lattice: shouting guarantees a minimum and keeps the upside. */
  function ShoutPrice(s0: real, c: Contract, lat: LatticeSpec, lock: (real, real) -> real): (px: real)
    requires lat.WellFormed()
    ensures px >= 0.0
    ensures px >= Valuation(s0, c, lat, Hold).Root()
  {
    ValuationNonneg(s0, c, lat, ShoutFloor(lock));
    AdjustedAtLeastEuropean(s0, c, lat, ShoutFloor(lock));
    ShoutLT(s0, c, lat, lock).Root()
  }

  /** Step i of the loop (i = n down to 1) computes layer i−1 with time left
      (n−i+1)·dt: that is the time left at layer i−1, at least dt and at most
      n·dt, so it is positive whenever dt is. */
  lemma {:induction false} StepTimeLeft(lat: LatticeSpec, i: nat)
    requires 1 <= i <= lat.n
    ensures ((lat.n - i + 1) as real) * lat.dt == TimeLeft(lat, i - 1)
    ensures lat.dt > 0.0 ==> ((lat.n - i + 1) as real) * lat.dt > 0.0
    ensures lat.dt >= 0.0 ==> lat.dt <= ((lat.n - i + 1) as real) * lat.dt <= (lat.n as real) * lat.dt
  {
    assert lat.n - i + 1 == lat.n - (i - 1);
  }

  /** Each layer k < n is the later layer stepped back once, and every node is
      max(continuation, max(locked value, 0)) with the locked value taken at the
      node's asset price and the time left at layer k. */
  lemma {:induction false} ShoutLayer(s0: real, c: Contract, lat: LatticeSpec, lock: (real, real) -> real, k: nat, j: nat)
    requires j <= k < lat.n
    ensures var t := ShoutLT(s0, c, lat, lock);
      var C := Continuation(lat, t.values[k + 1]);
      && t.assets[k] == ShiftDown(lat.d, t.assets[k + 1])
      && t.values[k][j] == Max(C[j], Max(lock(t.assets[k][j], TimeLeft(lat, k)), 0.0))
  {
    var S := TerminalPrices(s0, lat);
    var rule := ShoutFloor(lock);
    var t := RollBack(lat, rule, lat.n, S, Payouts(c, S));
    LayerStep(lat, rule, lat.n, S, Payouts(c, S), k + 1);
    var C := Continuation(lat, t.values[k + 1]);
    assert t.values[k][j] == NodeValue(lat, rule, k, t.assets[k][j], C[j]);
  }

  /** With 0 ≤ p ≤ 1 and df_dt ≥ 0, every node of the shout tree is non-negative
      and at least the European value at the same node; both trees share their
      asset prices. */
  lemma {:induction false} ShoutAtLeastEuropean(s0: real, c: Contract, lat: LatticeSpec, lock: (real, real) -> real)
    requires lat.WellFormed()
    ensures var t := ShoutLT(s0, c, lat, lock);
      var e := Valuation(s0, c, lat, Hold);
      && t.assets == e.assets
      && (forall k :: 0 <= k <= lat.n ==> AllNonneg(t.values[k]))
      && (forall k :: 0 <= k <= lat.n ==> AtLeast(t.values[k], e.values[k]))
  {
    ValuationNonneg(s0, c, lat, ShoutFloor(lock));
    AdjustedAtLeastEuropean(s0, c, lat, ShoutFloor(lock));
  }

  /** A higher locked value never lowers the price: the shout tree is monotone in
      the lock, node by node. */
  lemma {:induction false} ShoutMonotoneInLock(s0: real, c: Contract, lat: LatticeSpec,
                            lo: (real, real) -> real, hi: (real, real) -> real)
    requires lat.WellFormed()
    requires forall s: real, tl: real :: lo(s, tl) <= hi(s, tl)
    ensures var a, b := ShoutLT(s0, c, lat, hi), ShoutLT(s0, c, lat, lo);
      && (forall k :: 0 <= k <= lat.n ==> AtLeast(a.values[k], b.values[k]))
      && a.Root() >= b.Root()
  {
    assert Dominates(lat, ShoutFloor(hi), ShoutFloor(lo)) by {
      forall k: nat, s: real, c1: real, c2: real | k < lat.n && c1 >= c2
        ensures NodeValue(lat, ShoutFloor(hi), k, s, c1) >= NodeValue(lat, ShoutFloor(lo), k, s, c2)
      {
        assert lo(s, TimeLeft(lat, k)) <= hi(s, TimeLeft(lat, k));
      }
    }
    var S := TerminalPrices(s0, lat);
    RollBackDominates(lat, ShoutFloor(hi), ShoutFloor(lo), lat.n, S, Payouts(c, S), Payouts(c, S));
  }

  /** A lock that is never positive leaves the European lattice, since the floor
      max(·, 0) adds nothing to non-negative continuation values. */
  lemma {:induction false} NonPositiveLockIsEuropean(s0: real, c: Contract, lat: LatticeSpec, lock: (real, real) -> real)
    requires lat.WellFormed()
    requires forall s: real, tl: real :: lock(s, tl) <= 0.0
    ensures ShoutLT(s0, c, lat, lock).values == Valuation(s0, c, lat, Hold).values
  {
    var S := TerminalPrices(s0, lat);
    NonPositiveLockRollBack(lat, lock, lat.n, S, Payouts(c, S));
  }

  /** The rollback form of NonPositiveLockIsEuropean: from non-negative values, the floor changes no layer. */
  lemma {:induction false} NonPositiveLockRollBack(lat: LatticeSpec, lock: (real, real) -> real,
                                                   i: nat, S: seq<real>, O: seq<real>)
    requires lat.WellFormed()
    requires forall s: real, tl: real :: lock(s, tl) <= 0.0
    requires i <= lat.n && |S| == i + 1 && |O| == i + 1 && AllNonneg(O)
    ensures RollBack(lat, ShoutFloor(lock), i, S, O) == RollBack(lat, Hold, i, S, O)
    decreases i
  {
    if i > 0 {
      var S' := ShiftDown(lat.d, S);
      var C := Continuation(lat, O);
      ContinuationNonneg(lat, O);
      var A := Adjust(lat, ShoutFloor(lock), i - 1, S', C);
      forall j | 0 <= j < |C| ensures A[j] == C[j] {
        assert lock(S'[j], TimeLeft(lat, i - 1)) <= 0.0;
      }
      assert A == C;
      assert Adjust(lat, Hold, i - 1, S', C) == C;
      NonPositiveLockRollBack(lat, lock, i - 1, S', C);
    }
  }

  /** With u·d = 1 the asset tree recombines: layer k entry j is S0·d^(k−j)·u^j,
      so the root and the middle node of layer 2 are both S0. */
  lemma {:induction false} ShoutAssetTree(s0: real, c: Contract, lat: LatticeSpec, lock: (real, real) -> real)
    requires lat.u * lat.d == 1.0
    ensures var t := ShoutLT(s0, c, lat, lock);
      && (forall k :: 0 <= k <= lat.n ==> t.assets[k] == Grid(s0, lat.u, lat.d, k))
      && t.assets[0][0] == s0
      && (lat.n >= 2 ==> t.assets[2][1] == s0)
  {
    ValuationAssetTree(s0, c, lat, ShoutFloor(lock));
    if lat.n >= 2 {
      GridRecombines(s0, lat.u, lat.d, 0, 0);
    }
  }
}

=== FILE: wrappers.dfy ===
/** Optional values and success-or-error results, for the inputs the pricers accept
    as "None" and the exceptions they raise. */
module Wrappers {

  datatype Option<T> = None | Some(value: T)

  datatype Result<T, E> = Success(value: T) | Failure(error: E)
}
